=== FILE: README.md ===
# BundleBD configuration and build script, in Dafny

This project models two pieces of BundleBD, a tool that bundles BetterDiscord
plugins:

- **Configuration resolution** (`src/config.ts`). `getBundleConfig` merges
  `bundlebd.config.json` onto defaults. `getPluginConfig` reads the plugin's
  `config.json`. It merges `meta` onto defaults and deletes keys outside the
  12 accepted meta keys, warning once per deleted key. It also warns about a
  changelog without ZLibrary. `getConfigs` derives the webpack configuration:
  - the entry point;
  - the output library convention that `zlibrary` selects;
  - the externals map;
  - the ordered table of module rules, including the style rule pairs built by
    `styleRules` and the three SVG rules;
  - the Terser flags.
- **The build script** (`scripts/build.ts`):
  - the `externalPlugin` filter on module specifiers;
  - the comment stripper `content.replace(/\n?\/\/.*\n/g, "")`;
  - the two `onEnd` hooks, which do nothing when the build has errors;
  - the static `builds` table;
  - what each target does after a one-shot build and after each watch-mode
    rebuild: format and report "Built", or report "Failed to build".

JavaScript values are a `Json.Value` datatype. Objects are ordered field lists
kept in insertion order, including by `Object.assign`, spread and
`for ... in`. JavaScript puts integer-like keys first instead; see "Left out".
Warnings and
log lines are returned as sequences rather than printed. The file system,
`path.join`, `parseString`, the working directory and `ensureDirExists` are
fields of a `Host.Env` record passed in by the caller. Prettier, `tsc` and file
writes are `Builds.Effect` values recorded per target. The webpack
configuration is a plain record. Rule tests and queries are regexes, each
paired with the set of strings it matches.

Modules and files:

| module | file | contents |
|---|---|---|
| `Results` | results.dfy | `Option` (a value that may be `undefined`) and `Result` (a computation that may throw) |
| `Json` | json.dfy | values, property reads, `Object.assign`, spread, truthiness, string conversion |
| `Host` | host.dfy | the environment record and the fatal configuration errors |
| `Loader` | loader.dfy | `getBundleConfig`, the meta merge and filter, and `getPluginConfig` |
| `LoaderFacts` | loader_facts.dfy | defaults, idempotence, warnings, and the unknown-meta-key scenario |
| `Patterns` | patterns.dfy | the regexes of the rule table, and how `\.module` is spliced in |
| `Rules` | rules.dfy | rules, `styleRules` and the 11-rule table |
| `RuleTable` | rule_table.dfy | which rules apply to which imports |
| `Deriver` | deriver.dfy | `getConfigs` and the webpack record |
| `DeriverFacts` | deriver_facts.dfy | what `zlibrary` and the development switch change |
| `Externals` | externals.dfy | the `externalPlugin` filter |
| `Comments` | comments.dfy | the comment-stripping replace |
| `Builds` | builds.dfy | the build table, the hooks, and the per-target dispatch |
| `BuildFacts` | build_facts.dfy | per-target outcome, rebuilds, and independence of targets |

Three facts about the code that the model keeps:

- The externals map holds all four entries whatever `zlibrary` says
  (`src/config.ts:210-215`).
- The accepted meta keys include `updateUrl` (`src/config.ts:56-69`).
- A failing `tsc` run throws out of the declaration hook
  (`scripts/build.ts:34`); it is not turned into a warning. What esbuild
  does with that exception is left out below.

## Model

| member | source | states |
|---|---|---|
| Json.Lookup | src/config.ts:154-158 | A property read finds nothing exactly when the object lacks the key. A value it finds sits in a field with that key. |
| Json.LookupField | src/config.ts:74 | In an object with distinct keys, every field is read back under its own key. |
| Json.OverwriteLookup | src/config.ts:74 | Assigning to an existing key keeps the key order, makes that key read the new value, and leaves every other key's value alone. |
| Json.Put | src/config.ts:84 | Setting `meta`: an existing key stays in place and a new key is appended. The key reads the new value and every other key reads as before. Distinct keys stay distinct. |
| Json.Assign | src/config.ts:42-45 | `Object.assign`: a key reads the source's value if the source has the key, else the target's. The keys are the union and distinct keys stay distinct. In the model's insertion order the target's keys come first; JavaScript's integer-like key order is under Left out. |
| Json.NatToStringRoundTrip | src/config.ts:123 | The decimal digits `String(n)` writes for a natural number read back as that number. |
| Json.NatToStringInjective | src/config.ts:123 | Distinct natural numbers render as distinct digit strings. |
| Json.IntToString | src/config.ts:123 | An integer renders as at least one character, starting with "-" exactly when it is negative. After the sign come the digits of its magnitude. |
| Json.IntToStringRoundTrip | src/config.ts:123 | After an optional "-", the digits `String(n)` writes for an integer read back as its magnitude. |
| Json.IntToStringInjective | src/config.ts:123 | Distinct integers render as distinct strings. |
| Json.ToJsString | src/config.ts:123 | `String(v)` as `+` applies it: a string stays itself, an integer is written in decimal, an object is "[object Object]". |
| Json.OwnEnumerable | src/config.ts:44 | The fields `Object.assign` copies: an object's own fields; an array's or a string's elements under keys "0", "1", …; nothing for null, booleans and numbers. |
| Json.Spread | src/config.ts:84 | `{...config}` reads every key as the value's own enumerable fields do, and has distinct keys. |
| Loader.GetBundleConfig | src/config.ts:39-46 | Without a user file the result is exactly entry "src", output "dist", filename "[plugin].plugin.js". With one, every user key wins, every default key not overridden keeps its default, unknown keys are kept, and the three defaults are always present. Malformed JSON is an error. |
| Loader.DefaultMetaKeysAccepted | src/config.ts:49-69 | The default meta holds name, author, description and version, in that order. All four are accepted keys and none repeats. |
| Loader.KeptFields | src/config.ts:75-80 | After the deleting `for ... in` loop, every remaining key is in the allowed list and every remaining field was in the object. |
| Loader.DroppedKeys | src/config.ts:75-80 | Every key the loop deletes is outside the allowed list, and no more keys are deleted than there are fields. |
| Loader.KeptLookup | src/config.ts:75-80 | Every allowed key reads the same value before and after the loop. |
| Loader.KeptDistinct | src/config.ts:75-80 | The loop only deletes fields, so the object keeps distinct keys and every remaining field was in the input. |
| Loader.DroppedExactly | src/config.ts:75-80 | A key is deleted exactly when the object has it and it is not allowed. |
| Loader.DroppedDistinct | src/config.ts:75-80 | In an object with distinct keys, no key is deleted twice, so the loop warns about each deleted key exactly once. |
| Loader.MergeMeta | src/config.ts:74-80 | Every meta key is accepted and meta always has a `name`. An accepted key takes the user's value if the user gave one, else the default. Exactly the user keys outside the list are reported, each once. Keys are distinct. |
| Loader.MergedMetaFacts | src/config.ts:74-80 | The merged and filtered meta keeps `name` and distinct keys, filtering changes no accepted key's value, and only user keys are dropped. |
| Loader.WarningMessage | src/config.ts:76-82 | The invalid-key message is "Invalid meta key '", the key, then "' in config.json". |
| LoaderFacts.WarningMessageIdentifies | src/config.ts:76-82 | The logged text determines the warning: the two messages never coincide, and two invalid-key messages are equal only for the same key. |
| Loader.ChangelogNeedsZLibrary | src/config.ts:81 | `config.changelog && !config.zlibrary` can only hold for an object that has a truthy `changelog`. |
| LoaderFacts.ChangelogTruthiness | src/config.ts:81 | The condition uses JavaScript truthiness: an empty changelog list still warns, an empty string does not, `zlibrary: 0` does not silence it, `zlibrary: true` does, and an array config does not warn. |
| Loader.InvalidKeyWarnings | src/config.ts:76-78 | One invalid-key warning per deleted key, in the same order. |
| Loader.ParsedPluginConfig | src/config.ts:73-84 | For a non-null `config.json`, every key other than `meta` reads as in the file. `meta` holds the merged meta, all of whose keys are accepted. The warnings are the dropped-key warnings, then the changelog warning exactly when `changelog` is truthy and `zlibrary` is not. |
| Loader.GetPluginConfig | src/config.ts:48-86 | Without `config.json` the result is exactly `{meta: defaultMeta}` with no warnings. Malformed JSON is an error, and so is a `null` config, whose `meta` read throws. Otherwise the result is the parsed configuration above. On success `meta` is readable from the config, has accepted keys only and has a name. |
| LoaderFacts.MetaDefaultsKept | src/config.ts:49-74 | A default meta key the user does not supply keeps "Unknown", "Plugin bundled with BundleBD", "1.0.0" or the plugin argument. |
| LoaderFacts.FilterKeepsAllowed | src/config.ts:75-80 | Filtering an object whose keys are all allowed changes nothing and reports nothing. |
| LoaderFacts.FilterIdempotent | src/config.ts:75-80 | Filtering an already filtered meta changes nothing and produces no warnings. |
| LoaderFacts.FilterDropsLast | src/config.ts:75-80 | A trailing field with a key outside the list is deleted and is the one key reported. |
| LoaderFacts.NoConfigFileMetaOnly | src/config.ts:85 | Without `config.json` the configuration has the single key `meta`: no `entry`, `zlibrary` or `changelog`, and no warnings. |
| LoaderFacts.PluginWarnings | src/config.ts:76-84 | For a non-null `config.json` the load succeeds, and its warnings are the dropped-key warnings followed by at most the changelog warning. |
| LoaderFacts.WarningsShape | src/config.ts:76-83 | The warning list has one entry per dropped key, in order, then the changelog warning if given. That warning is present exactly when it was emitted. |
| LoaderFacts.WarningCount | src/config.ts:76-83 | There are as many warnings as dropped keys plus one if a changelog lacks ZLibrary. The k-th warning names the k-th dropped key, which is not accepted, and no two of these warnings are equal. The changelog warning appears exactly when `changelog` is truthy and `zlibrary` is not. |
| LoaderFacts.NameAssigned | src/config.ts:74 | Assigning `{name}` onto the defaults gives the defaults for that name. |
| LoaderFacts.StrayAssigned | src/config.ts:74 | Assigning `{name, <stray key>}` onto the defaults overwrites the name in place and appends the stray key last. |
| LoaderFacts.StrayMerged | src/config.ts:74-80 | The merge of `{name, <stray key>}` yields the defaults for that name and reports exactly the stray key. |
| LoaderFacts.StrayLoaded | src/config.ts:73-84 | For `{"meta": {name, <stray key>}}` the meta is the defaults with that name, and the only warning is about the stray key. |
| LoaderFacts.UnknownMetaKeyScenario | src/config.ts:71-84 | Reading `{"meta": {"name": N, "bogus": x}}` with any name and any unaccepted key succeeds. The meta has name N, no stray key and the other defaults. Exactly one warning names the stray key. |
| Patterns.WithLiteralPrefix | src/config.ts:122 | For a source without `\|`, `new RegExp("\\.module" + re.source)` has the spliced source, and it matches exactly where `.module` immediately precedes a match of `re`. |
| Patterns.Extension | src/config.ts:172-207 | A path's extension is dot-free text that the path ends with, right after a dot. A path without an extension contains no dot. |
| Patterns.ExtensionOfSuffix | src/config.ts:172-207 | A path ending in "." plus dot-free text has that text as its extension. |
| Patterns.MatchesByExtension | src/config.ts:172-207 | A `$`-anchored suffix test over dotted alternatives matches a path exactly when the path's extension is one of the alternatives. |
| Rules.NamedLoaders | src/config.ts:128 | The preprocessors are appended as loaders, one per name, in order. |
| Rules.StyleChain | src/config.ts:116-129 | The loader chain is the style loader, then css-loader, then the preprocessors. css-loader has `localIdentName` = meta name + "-[name]-[local]" and `importLoaders` = number of preprocessors, or 0 when there are none. |
| Rules.StyleRules | src/config.ts:112-148 | Exactly two rules with the same test and no issuer. The first excludes the `module` query and sets `auto` to `\.module` + the test. The second requires the `module` query and has no `auto`. |
| Rules.ModuleRules | src/config.ts:172-208 | The rule table has 11 rules, and positions 2-3 and 4-5 are the CSS and Sass style pairs. |
| Rules.RuleLoaders | src/config.ts:172-207 | Rules 0 and 1 run esbuild-loader with the jsx and tsx loaders at es2018. Rule 6 makes `.txt` files `asset/source`. Rule 7 runs esbuild's jsx loader and svgr (automatic runtime, no Babel). Rules 8-10 are `asset/inline`. Only rules 7-9 test the importer, and only the style rules and rules 7-8 test the query. |
| RuleTable.StylePairSplitsOnQuery | src/config.ts:112-148 | For a resource the pair tests for, the first rule applies exactly when the query lacks `module` and the second exactly when it has it. |
| RuleTable.SvgRulesPartition | src/config.ts:187-203 | For an `.svg` resource exactly one of the three SVG rules applies. A script importer without `url` in the query gets the rule that runs esbuild's jsx loader after svgr. Every other importer or query gets one of the two `asset/inline` rules. |
| RuleTable.StyleTestsHaveNoBar | src/config.ts:181-182 | The CSS and Sass tests have no alternation, so `\.module` can be spliced in front of them. |
| RuleTable.TestsByGroup | src/config.ts:172-207 | Every test of the table is a suffix test over dotted extensions, and no extension belongs to two tests. |
| RuleTable.RuleTests | src/config.ts:172-208 | Rule by rule, which of the seven tests the table uses. |
| RuleTable.ApplyingRuleGroup | src/config.ts:172-208 | A rule applies only to resources whose extension belongs to its test. |
| RuleTable.SameTestExclusive | src/config.ts:181-203 | Two rules sharing a test never apply to the same import. |
| RuleTable.AtMostOneRuleApplies | src/config.ts:172-208 | No import is handled by two rules of the table. |
| RuleTable.AppliesOnlyToHandled | src/config.ts:172-208 | A resource some rule applies to has one of the seven known extensions. |
| RuleTable.HandledHasRule | src/config.ts:172-208 | For every resource with a known extension some rule applies, whatever the importer and the query. |
| RuleTable.SomeRuleAppliesIffHandled | src/config.ts:172-208 | Some rule applies exactly when the resource has a known extension. |
| Deriver.LibraryFor | src/config.ts:158-166 | The library is assign/"Plugin" exactly when `zlibrary` is truthy, and commonjs2/"default" exactly when it is not. |
| Deriver.EntryPoint | src/config.ts:154 | A falsy or absent `entry` gives the entry directory. A string gives `join(entryDir, entry)`. Any other truthy value is an error, as `path.join` throws on it. |
| Deriver.WebpackConfigFor | src/config.ts:150-233 | Webpack configuration succeeds exactly when the entry does. It has mode "production", target "node", the four script extensions, and the React provide plugin followed by the progress plugin. It has that entry, the library `zlibrary` selects, the four externals, the 11-rule table and watch = development. Terser's compress defaults, comments and mangle are all false. The filename and output path are expanded from the bundle configuration. |
| Deriver.EntryDir | src/config.ts:92 | With the default bundle configuration the entry directory is the expanded `src` under the working directory. |
| Deriver.MetaName | src/config.ts:123 | The class-name prefix is `meta.name` itself when it is a string, and its decimal form when it is a number. |
| DeriverFacts.DefaultMetaName | src/config.ts:49-50 | The default meta's name is the plugin argument. |
| Deriver.GetConfigs | src/config.ts:88-95 | Each step's failure is passed on unchanged, in order: bundle configuration error, missing entry directory, plugin configuration error, then a truthy non-string `entry`. The call succeeds exactly when none of these happens. On success the three results are the bundle configuration, the plugin configuration read from the entry directory, and the webpack configuration derived from both. The warnings are the plugin loader's. |
| DeriverFacts.NoConfigFiles | src/config.ts:39-95 | With no `bundlebd.config.json`, no `config.json` and an existing `src` directory, loading succeeds with no warnings. The bundle and meta are the defaults and the entry is the expanded `src` directory. The output is the expanded `[plugin].plugin.js` under the expanded `dist`, the library is CommonJS, and CSS class names start with the plugin argument. |
| DeriverFacts.EmptyEntryFallsBack | src/config.ts:154 | An empty or absent `entry` gives the entry directory itself. |
| DeriverFacts.ZLibraryOnlyChangesLibrary | src/config.ts:154-215 | Adding `zlibrary` to a plugin configuration changes only the output library. The externals, the rules and the entry are identical in both cases, and the library is assign/"Plugin" exactly when the flag is truthy. |
| DeriverFacts.DevelopmentOnlyWatches | src/config.ts:150-153 | The development switch changes only webpack's watch flag. |
| Externals.IsExternal | scripts/build.ts:12 | A specifier is external exactly when it is non-empty, does not start with "/", "./" or "../", and is not "." or "..". |
| Externals.OnResolve | scripts/build.ts:13 | Exactly the external specifiers resolve to themselves, marked external. |
| Externals.ExternalExamples | scripts/build.ts:12 | "react", "@zlibrary/plugin", ".x" and "..." are external. "./a", "../a", "/a", "", "." and ".." are not. |
| Comments.LineEnd | scripts/build.ts:24 | The greedy `.*` stops at the first line terminator (LF, CR, U+2028, U+2029) or at the end of the text, and crosses none. |
| Comments.SlashCommentAt | scripts/build.ts:24 | A `//.*\n` match starts with `//`, ends just after a line feed and has no terminator in between. |
| Comments.MatchAt | scripts/build.ts:24 | A match at a position covers at least three characters and stays inside the text. |
| Comments.LineEndAt | scripts/build.ts:24 | `.*` run over a line without terminators stops at the terminator after it. |
| Comments.CommentShapedMatched | scripts/build.ts:24 | Comment-shaped text at a position is matched there, exactly through its final line feed. |
| Comments.MatchIffCommentShaped | scripts/build.ts:24 | The pattern matches from i to e exactly when the text between is comment-shaped. |
| Comments.UnmatchedNoComment | scripts/build.ts:24 | Where nothing matches, no comment-shaped text starts. |
| Comments.Step | scripts/build.ts:24 | One step of the scan takes the match at the position if there is one, else one character, and the scan resumes after it. |
| Comments.AllAgreeAt | scripts/build.ts:24 | In a decomposition that agrees with the scan, every piece is what the scan takes at its start. |
| Comments.PiecesLeftmost | scripts/build.ts:24 | The scan's decomposition agrees with the scan at every piece: a kept character where nothing matches, a deleted piece that is exactly the match. |
| Comments.KeptPiecesNoComment | scripts/build.ts:24 | No comment-shaped text starts where a character is kept. |
| Comments.MatchIsCommentShaped | scripts/build.ts:24 | Every match is `//` or a line feed plus `//`, then a line without terminators, then a line feed. |
| Comments.StripFrom | scripts/build.ts:24 | The rest of the scan is never longer than the rest of the input. |
| Comments.StripComments | scripts/build.ts:24 | The output is never longer than the input. |
| Comments.PiecesCover | scripts/build.ts:24 | The pieces the scan cuts the input into, put back together, give the input. |
| Comments.PiecesKept | scripts/build.ts:24 | The kept pieces, put together, give the output. |
| Comments.PiecesDropped | scripts/build.ts:24 | Every deleted piece is comment-shaped. |
| Comments.StripDeletesComments | scripts/build.ts:24 | The output is the input with disjoint comment-shaped pieces deleted, and no comment-shaped text starts where a character is kept: the replace misses no comment it scans past. |
| Comments.NoSlashesUnchanged | scripts/build.ts:24 | Content without `//` comes back unchanged. |
| Comments.ReplaceAll | scripts/build.ts:24 | The left-to-right loop that resumes after each match computes the same text as the scan, and it is no longer than the input. |
| Comments.CommentLineJoinsNeighbours | scripts/build.ts:24 | A comment line is deleted together with the line feed before it, which joins the lines around it. |
| Comments.FinalCommentKept | scripts/build.ts:24 | A final comment without a trailing line feed is kept. |
| Comments.CrlfCommentKept | scripts/build.ts:24 | A comment ended by CR LF is kept. |
| Comments.UrlInStringTruncated | scripts/build.ts:24 | A `//` inside a string literal after code is deleted through the line feed, joining the next line. |
| Builds.BuildTable | scripts/build.ts:51-74 | `bin` externalises exactly the dependency names, carries the shebang banner and no plugins. `lib` carries the external, declaration and no-comments plugins, no banner and no external list, and is an ES module. The entry points are `src/bin/index.ts` and `src/lib/index.ts` and the output files `bin.js` and `index.js`. Both bundle for the node platform, neither watches initially, and the names are distinct. |
| Builds.Configure | scripts/build.ts:83-97 | Both targets watch exactly when the first command-line argument is "watch". Nothing else in the table changes, so the names stay distinct. |
| Builds.OnEnd | scripts/build.ts:17-37 | Both hooks do nothing when the build has errors. Otherwise the declaration hook runs `tsc` and the no-comments hook rewrites `index.js` with its comments stripped. |
| Builds.OneShot | scripts/build.ts:99-106 | The hooks' effects come first. The last effect is "Built" if the build succeeded and formatting did not throw, and "Failed to build" otherwise, since the `catch` also covers a formatting error. |
| Builds.OnRebuild | scripts/build.ts:87-94 | The hooks' effects come first. The last effect is "Failed to build" for a failed rebuild and "Built" after successful formatting. A formatting error escapes the callback. |
| Builds.TargetEffects | scripts/build.ts:83-107 | A target's effects start with its one-shot build. An unwatched target, or one with no rebuilds, does nothing else. |
| Builds.Line | scripts/build.ts:89-106 | Each console line ends with the target's name. |
| BuildFacts.LineIdentifiesReport | scripts/build.ts:89-106 | The console line determines the report: "Built" and "Failed to build" lines never coincide, and each determines the name. |
| Builds.HookEffects | scripts/build.ts:17-37 | A failed build runs no hook, and the hooks only run `tsc` or write files. |
| Builds.RunAll | scripts/build.ts:99-107 | Each target's effects sit under its own name, and there is no other entry. |
| BuildFacts.NoFormatsInHooks | scripts/build.ts:17-37 | The hooks never format. |
| BuildFacts.DispatchFormats | scripts/build.ts:87-106 | After the hooks, the output is formatted once after a successful build and never after a failed one. |
| BuildFacts.DispatchShape | scripts/build.ts:87-106 | After the hooks, the only log line is last, and formatting happens exactly after a successful build. |
| BuildFacts.HooksThenDispatch | scripts/build.ts:17-37 | Putting the hooks first adds no log line and no formatting. |
| BuildFacts.OneShotFormats | scripts/build.ts:99-107 | A one-shot build formats its output once if it succeeded and not at all otherwise. |
| BuildFacts.OneShotLogs | scripts/build.ts:99-107 | A one-shot build logs only at the end. |
| BuildFacts.OneShotOutcome | scripts/build.ts:99-107 | A one-shot build is formatted exactly once if it succeeded and not at all otherwise. Its last effect, and only log line, is "Built" if formatting also succeeded and "Failed to build" otherwise. |
| BuildFacts.OnRebuildFormats | scripts/build.ts:87-94 | A rebuild is formatted exactly once if it succeeded and not at all otherwise. |
| BuildFacts.FailedBuildUntouched | scripts/build.ts:87-106 | A failed build or rebuild only logs "Failed to build": no hook runs and nothing is formatted. |
| BuildFacts.SameDispatchBothModes | scripts/build.ts:87-106 | Unless formatting throws, the one-shot path and the rebuild path do the same thing. |
| BuildFacts.LibraryPipeline | scripts/build.ts:17-37 | A successful `lib` build runs `tsc`, writes `index.js` with comments stripped, formats `index.js`, then logs "Built lib", in that order. |
| BuildFacts.BinaryPipeline | scripts/build.ts:52-61 | A successful `bin` build formats `bin.js`, then logs "Built bin". |
| BuildFacts.RebuildFormats | scripts/build.ts:83-97 | Across a sequence of rebuilds, the number of formats equals the number of successful rebuilds. |
| BuildFacts.SessionFormats | scripts/build.ts:83-107 | A watched target is formatted once per successful build, the first included. An unwatched target ignores rebuilds. |
| BuildFacts.TwoRebuildsFormatTwice | scripts/build.ts:86-95 | Two successful rebuilds are post-processed in order, each from its own output, and formatted twice in total. |
| BuildFacts.TargetsIndependent | scripts/build.ts:99-107 | A target's effects depend only on its own builds, not on any other target's. |

## Left out

- `src/lib/config.ts` holds type declarations only and is not part of this model.
- File I/O, `process.cwd()`, `path.join`, `path.resolve`, `parseString` and `ensureDirExists` are fields of `Env`, so their behaviour is an input. A missing entry directory is modelled as the `MissingEntryDirectory` error.
- `argv.plugin` is a string. Its being absent from the command line is not modelled.
- Order of `for ... in`: JavaScript visits integer-like keys first, in numeric order. The model visits keys in insertion order. The two differ only for numeric-looking meta keys, whose warnings could come out in a different order.
- Json.Assign: JavaScript's `Object.assign` and spread list integer-like keys ("0", "1", …) first, in ascending order, and then the other keys in insertion order. The model keeps insertion order throughout. A new integer-like key, such as one from `{"0": "x"}` in `bundlebd.config.json` or from a string `meta`, is appended rather than placed first. The same holds for Json.Spread and Json.Put. Values read by key are unaffected; only the order of keys differs.
- `__proto__` keys in parsed JSON, getters and inherited properties are not modelled.
- JSON numbers are unbounded integers in the model. Fractions, `NaN` and `-0` are not represented. `JSON.parse` rounds integers beyond 2^53 to the nearest double, and the model does not.
- Json.ToJsString: numbers are written as plain decimal digits. JavaScript switches to exponent form at magnitude 10^21 and above (`String(1e21)` is "1e+21"), so a `meta.name` that large would give a different class-name prefix. Nested values are rendered for the shapes `meta.name` can take. Strings are sequences of Unicode scalar values, not UTF-16 code units.
- Patterns.WithLiteralPrefix: only sources without `|` are covered. In a source with a top-level `|`, the prefix binds to the first alternative only. `styleRules` is only called with `/\.css$/` and `/\.s[ac]ss$/`, which have none.
- Each regex of the rule table is paired with its language by hand. The regexes are not parsed.
- Webpack, esbuild, Terser, css-loader, svgr, `ProvidePlugin` and `ProgressPlugin` keep only the declarative values the code builds, not what those tools do with them.
- Prettier's output is opaque. Whether formatting succeeds is an input (`Attempt.formatOk`), and `format` is a `Format` effect on the output file.
- `execSync("tsc")` and the reads and writes in the `onEnd` hooks are effects and always succeed. A failing `tsc` would throw inside the hook, and what esbuild does then is not modelled.
- After a formatting failure in watch mode the exception leaves `onRebuild`. The model records it as `Escaped`, not as what esbuild does next.
- Promise scheduling and the interleaving of console output between targets are not modelled. Outcomes are kept per target in a map keyed by name.
- `package.json`'s dependency names are a parameter of `BuildTable`.
- The `bdPath` and `readme` bundle options are passed through by `getBundleConfig` and have no other behaviour in this code.

=== FILE: build_facts.dfy ===
/** What the build script promises per target: a build that succeeds is
    formatted and reported built, one that fails is reported failed and
    left alone, each rebuild in watch mode is handled the same way, and no
    target's outcome reaches another's. */
module BuildFacts {
  import opened Results
  import opened Comments
  import opened Builds

  function CountFormats(es: seq<Effect>): nat {
    if es == [] then 0 else CountFormats(es[..|es| - 1]) + (if es[|es| - 1].Format? then 1 else 0)
  }

  lemma {:induction false} CountFormatsAppend(a: seq<Effect>, b: seq<Effect>)
    ensures CountFormats(a + b) == CountFormats(a) + CountFormats(b)
    decreases |b|
  {
    if b == [] {
      assert a + b == a;
    } else {
      assert (a + b)[..|a + b| - 1] == a + b[..|b| - 1];
      CountFormatsAppend(a, b[..|b| - 1]);
    }
  }

  lemma {:induction false} NoFormatsInHooks(es: seq<Effect>)
    requires forall k :: 0 <= k < |es| ==> es[k].RunTsc? || es[k].WriteFile?
    ensures CountFormats(es) == 0
    decreases |es|
  {
    if es != [] {
      NoFormatsInHooks(es[..|es| - 1]);
    }
  }

  lemma CountFormatsPair(x: Effect, y: Effect)
    ensures CountFormats([x, y]) == (if x.Format? then 1 else 0) + (if y.Format? then 1 else 0)
  {
    assert [x, y][..1] == [x];
    assert [x][..0] == [];
    assert CountFormats([x]) == CountFormats([]) + (if x.Format? then 1 else 0);
    assert CountFormats([x, y]) == CountFormats([x]) + (if y.Format? then 1 else 0);
  }

  predicate Succeeded(a: Attempt) {
    |a.errors| == 0
  }

  function Successes(rs: seq<Attempt>): nat {
    if rs == [] then 0 else Successes(rs[..|rs| - 1]) + (if Succeeded(rs[|rs| - 1]) then 1 else 0)
  }

  /** The dispatch formats once after a successful build and never after a
      failed one, whatever stands in for a formatting error. */
  lemma DispatchFormats(t: Target, a: Attempt, onFormatError: Effect)
    requires !onFormatError.Format?
    ensures CountFormats(Dispatch(t, a, onFormatError)) == if Succeeded(a) then 1 else 0
  {
    var d := Dispatch(t, a, onFormatError);
    if Succeeded(a) {
      CountFormatsPair(d[0], d[1]);
      assert d == [d[0], d[1]];
    } else {
      assert d[..0] == [];
    }
  }

  /** The dispatch ends with its only log line, and formats the output
      exactly after a successful build. */
  lemma DispatchShape(t: Target, a: Attempt, onFormatError: Effect)
    requires !onFormatError.Format?
    ensures var d := Dispatch(t, a, onFormatError);
      && |d| >= 1
      && (forall k :: 0 <= k < |d| - 1 ==> !d[k].Log?)
      && (Format(t.options.outfile) in d <==> Succeeded(a))
  {
  }

  /** Hooks followed by a dispatch: the hooks add no log line and no
      formatting. */
  lemma HooksThenDispatch(hooks: seq<Effect>, d: seq<Effect>, f: string)
    requires forall k :: 0 <= k < |hooks| ==> hooks[k].RunTsc? || hooks[k].WriteFile?
    requires |d| >= 1 && forall k :: 0 <= k < |d| - 1 ==> !d[k].Log?
    ensures forall k :: 0 <= k < |hooks + d| - 1 ==> !(hooks + d)[k].Log?
    ensures Format(f) in hooks + d <==> Format(f) in d
    ensures CountFormats(hooks + d) == CountFormats(d)
  {
    NoFormatsInHooks(hooks);
    CountFormatsAppend(hooks, d);
    if Format(f) in hooks + d {
      var k :| 0 <= k < |hooks + d| && (hooks + d)[k] == Format(f);
      assert k >= |hooks| && d[k - |hooks|] == Format(f);
    }
    if Format(f) in d {
      var k :| 0 <= k < |d| && d[k] == Format(f);
      assert (hooks + d)[|hooks| + k] == Format(f);
    }
  }

  lemma OneShotFormats(t: Target, a: Attempt)
    ensures CountFormats(OneShot(t, a)) == (if Succeeded(a) then 1 else 0)
    ensures Format(t.options.outfile) in OneShot(t, a) <==> Succeeded(a)
  {
    var hooks := HookEffects(t.options.plugins, a);
    var d := Dispatch(t, a, Log(Failed(t.name)));
    assert OneShot(t, a) == hooks + d;
    DispatchFormats(t, a, Log(Failed(t.name)));
    DispatchShape(t, a, Log(Failed(t.name)));
    HooksThenDispatch(hooks, d, t.options.outfile);
  }

  lemma OneShotLogs(t: Target, a: Attempt)
    ensures var es := OneShot(t, a); forall k :: 0 <= k < |es| - 1 ==> !es[k].Log?
  {
    var hooks := HookEffects(t.options.plugins, a);
    var d := Dispatch(t, a, Log(Failed(t.name)));
    assert OneShot(t, a) == hooks + d;
    DispatchShape(t, a, Log(Failed(t.name)));
    HooksThenDispatch(hooks, d, t.options.outfile);
  }

  /** One-shot build: the output is formatted exactly when the build
      succeeded; "Built" is reported exactly when formatting also
      succeeded, and "Failed to build" otherwise, as the last effect. */
  lemma OneShotOutcome(t: Target, a: Attempt)
    ensures var es := OneShot(t, a);
      && CountFormats(es) == (if Succeeded(a) then 1 else 0)
      && (Format(t.options.outfile) in es <==> Succeeded(a))
      && es[|es| - 1] == Log(if Succeeded(a) && a.formatOk then Built(t.name) else Failed(t.name))
      && (forall k :: 0 <= k < |es| - 1 ==> !es[k].Log?)
  {
    OneShotFormats(t, a);
    OneShotLogs(t, a);
  }

  lemma OnRebuildFormats(t: Target, a: Attempt)
    ensures CountFormats(OnRebuild(t, a)) == if Succeeded(a) then 1 else 0
  {
    var hooks := HookEffects(t.options.plugins, a);
    NoFormatsInHooks(hooks);
    CountFormatsAppend(hooks, Dispatch(t, a, Escaped));
    DispatchFormats(t, a, Escaped);
  }

  /** A failed build runs no hook and is not formatted. */
  lemma FailedBuildUntouched(t: Target, a: Attempt)
    requires !Succeeded(a)
    ensures OneShot(t, a) == [Log(Failed(t.name))]
    ensures OnRebuild(t, a) == [Log(Failed(t.name))]
  {
  }

  /** The one-shot path and the rebuild path agree whenever formatting does
      not throw. */
  lemma SameDispatchBothModes(t: Target, a: Attempt)
    requires !Succeeded(a) || a.formatOk
    ensures OneShot(t, a) == OnRebuild(t, a)
  {
  }

  /** A successful library build: declarations, comment stripping of
      `index.js`, formatting, then the report. */
  lemma LibraryPipeline(argv: seq<string>, deps: seq<string>, a: Attempt)
    requires Succeeded(a) && a.formatOk
    ensures OneShot(Configure(argv, deps)[1], a) ==
              [RunTsc, WriteFile("index.js", StripComments(a.emitted)), Format("index.js"), Log(Built("lib"))]
  {
    var t := Configure(argv, deps)[1];
    assert t.options.plugins == [ExternalPlugin, DeclarationPlugin, NoCommentsPlugin];
    var ps := t.options.plugins;
    assert HookEffects(ps[3..], a) == [] by { assert ps[3..] == []; }
    assert HookEffects(ps[2..], a) == [WriteFile("index.js", StripComments(a.emitted))] by {
      assert ps[2..][1..] == ps[3..];
    }
    assert HookEffects(ps[1..], a) == [RunTsc, WriteFile("index.js", StripComments(a.emitted))] by {
      assert ps[1..][1..] == ps[2..];
    }
    assert HookEffects(ps, a) == [RunTsc, WriteFile("index.js", StripComments(a.emitted))];
  }

  /** A successful binary build: formatting, then the report; no hook runs. */
  lemma BinaryPipeline(argv: seq<string>, deps: seq<string>, a: Attempt)
    requires Succeeded(a) && a.formatOk
    ensures OneShot(Configure(argv, deps)[0], a) == [Format("bin.js"), Log(Built("bin"))]
  {
  }

  /** In watch mode every successful rebuild is formatted once, and only
      those. */
  lemma {:induction false} RebuildFormats(t: Target, rs: seq<Attempt>)
    ensures CountFormats(Rebuilds(t, rs)) == Successes(rs)
    decreases |rs|
  {
    if rs != [] {
      var last := rs[|rs| - 1];
      RebuildFormats(t, rs[..|rs| - 1]);
      CountFormatsAppend(Rebuilds(t, rs[..|rs| - 1]), OnRebuild(t, last));
      OnRebuildFormats(t, last);
    }
  }

  /** A watched target is formatted once per successful build, the first
      included; an unwatched one ignores rebuild signals. */
  lemma SessionFormats(t: Target, s: Session)
    ensures CountFormats(TargetEffects(t, s)) ==
              (if Succeeded(s.initial) then 1 else 0) + (if t.options.watch then Successes(s.rebuilds) else 0)
  {
    OneShotOutcome(t, s.initial);
    var later := if t.options.watch then Rebuilds(t, s.rebuilds) else [];
    CountFormatsAppend(OneShot(t, s.initial), later);
    if t.options.watch {
      RebuildFormats(t, s.rebuilds);
    }
  }

  /** A target's effects depend on its own session only. */
  lemma TargetsIndependent(ts: seq<Target>, s1: map<string, Session>, s2: map<string, Session>, i: nat)
    requires DistinctNames(ts) && i < |ts|
    requires forall j :: 0 <= j < |ts| ==> ts[j].name in s1 && ts[j].name in s2
    requires s1[ts[i].name] == s2[ts[i].name]
    ensures RunAll(ts, s1)[ts[i].name] == RunAll(ts, s2)[ts[i].name]
  {
  }

  /** Two successful rebuilds of a watched target: each is post-processed
      from its own output, once, in order. */
  lemma TwoRebuildsFormatTwice(t: Target, a: Attempt, b: Attempt)
    requires Succeeded(a) && Succeeded(b)
    ensures Rebuilds(t, [a, b]) == OnRebuild(t, a) + OnRebuild(t, b)
    ensures CountFormats(Rebuilds(t, [a, b])) == 2
  {
    assert [a, b][..1] == [a];
    assert [a][..0] == [];
    assert Rebuilds(t, [a]) == [] + OnRebuild(t, a);
    assert [] + OnRebuild(t, a) == OnRebuild(t, a);
    RebuildFormats(t, [a, b]);
    assert Successes([a]) == 1;
  }

  /** The console line names the report: "Built " and "Failed to build "
      never collide, and each gives back the target's name. */
  lemma LineIdentifiesReport(r1: Report, r2: Report)
    requires Line(r1) == Line(r2)
    ensures r1 == r2
  {
    var l := Line(r1);
    LineHead(r1);
    LineHead(r2);
    if r1.Built? && r2.Built? {
      assert r1.name == l[6..] == r2.name;
    } else if r1.Failed? && r2.Failed? {
      assert r1.name == l[16..] == r2.name;
    }
  }

  lemma LineHead(r: Report)
    ensures |Line(r)| > 0 && Line(r)[0] == if r.Built? then 'B' else 'F'
  {
  }
}

=== FILE: builds.dfy ===
/** The build script: the static table of esbuild targets, the post-build
    hooks of the library target, and what each build or rebuild of a
    target does and reports. Formatting with Prettier is an opaque effect
    on the output file; log lines are returned as effects too. */
module Builds {
  import opened Results
  import opened Comments

  datatype PluginKind = ExternalPlugin | DeclarationPlugin | NoCommentsPlugin

  datatype Options = Options(
    entryPoints: seq<string>,
    outfile: string,
    bundle: bool,
    external: seq<string>,
    platform: string,
    format: Option<string>,
    banner: Option<string>,
    plugins: seq<PluginKind>,
    watch: bool)

  datatype Target = Target(name: string, options: Options)

  const Shebang := "#!/usr/bin/env node\n"

  /** `builds`, for a package whose dependency names are `deps`. */
  function BuildTable(deps: seq<string>): (ts: seq<Target>)
    ensures |ts| == 2 && ts[0].name == "bin" && ts[1].name == "lib"
    ensures ts[0].options.external == deps && ts[0].options.banner == Some(Shebang)
    ensures ts[0].options.plugins == [] && ts[0].options.format.None?
    ensures ts[1].options.external == [] && ts[1].options.banner.None?
    ensures ts[1].options.plugins == [ExternalPlugin, DeclarationPlugin, NoCommentsPlugin]
    ensures ts[0].options.entryPoints == ["src/bin/index.ts"] && ts[0].options.outfile == "bin.js"
    ensures ts[1].options.entryPoints == ["src/lib/index.ts"] && ts[1].options.outfile == "index.js"
    ensures ts[1].options.format == Some("esm")
    ensures forall i :: 0 <= i < |ts| ==> !ts[i].options.watch && ts[i].options.bundle
    ensures forall i :: 0 <= i < |ts| ==> ts[i].options.platform == "node"
    ensures DistinctNames(ts)
  {
    [
      Target("bin", Options(["src/bin/index.ts"], "bin.js", true, deps, "node", None, Some(Shebang), [], false)),
      Target("lib", Options(["src/lib/index.ts"], "index.js", true, [], "node", Some("esm"), None,
                            [ExternalPlugin, DeclarationPlugin, NoCommentsPlugin], false))
    ]
  }

  /** `process.argv.slice(2)[0] === "watch"`. */
  predicate IsWatchRun(argv: seq<string>) {
    var args := if |argv| >= 2 then argv[2..] else [];
    |args| > 0 && args[0] == "watch"
  }

  /** The table after the watch loop has run over it. */
  function Configure(argv: seq<string>, deps: seq<string>): (ts: seq<Target>)
    ensures |ts| == 2
    ensures forall i :: 0 <= i < |ts| ==>
              ts[i].options.watch == (|argv| >= 3 && argv[2] == "watch")
              && ts[i].name == BuildTable(deps)[i].name
              && ts[i].options == BuildTable(deps)[i].options.(watch := ts[i].options.watch)
    ensures DistinctNames(ts)
  {
    var table := BuildTable(deps);
    var watch := IsWatchRun(argv);
    seq(|table|, i requires 0 <= i < |table| => table[i].(options := table[i].options.(watch := watch)))
  }

  datatype Report = Built(name: string) | Failed(name: string)

  /** The console line for a report: it ends with the target's name. */
  function Line(r: Report): (s: string)
    ensures |r.name| < |s| && s[|s| - |r.name|..] == r.name
  {
    match r
    case Built(n) => "Built " + n
    case Failed(n) => "Failed to build " + n
  }

  /** What a build step does. `Escaped` is an exception leaving the watch
      callback. */
  datatype Effect =
    | RunTsc
    | WriteFile(path: string, content: string)
    | Format(path: string)
    | Log(report: Report)
    | Escaped

  /** One build or rebuild as esbuild reports it: its errors, the text it
      wrote to the library output, and whether formatting then succeeds. */
  datatype Attempt = Attempt(errors: seq<string>, emitted: string, formatOk: bool)

  /** The `onEnd` hook of one plugin. Both hooks return at once when the
      build has errors. */
  function OnEnd(p: PluginKind, errors: seq<string>, indexJs: string): (es: seq<Effect>)
    ensures |errors| > 0 ==> es == []
    ensures |errors| == 0 && p == DeclarationPlugin ==> es == [RunTsc]
    ensures |errors| == 0 && p == NoCommentsPlugin ==> es == [WriteFile("index.js", StripComments(indexJs))]
    ensures p == ExternalPlugin ==> es == []
  {
    match p
    case ExternalPlugin => []
    case DeclarationPlugin => if |errors| > 0 then [] else [RunTsc]
    case NoCommentsPlugin =>
      if |errors| > 0 then [] else [WriteFile("index.js", StripComments(indexJs))]
  }

  function HookEffects(plugins: seq<PluginKind>, a: Attempt): (es: seq<Effect>)
    ensures |a.errors| > 0 ==> es == []
    ensures forall k :: 0 <= k < |es| ==> es[k].RunTsc? || es[k].WriteFile?
  {
    if plugins == [] then []
    else OnEnd(plugins[0], a.errors, a.emitted) + HookEffects(plugins[1..], a)
  }

  /** What follows the hooks: "Failed to build" for a failed build;
      otherwise formatting, then "Built" if it succeeded and `onFormatError`
      if it threw. */
  function Dispatch(t: Target, a: Attempt, onFormatError: Effect): seq<Effect> {
    if |a.errors| > 0 then [Log(Failed(t.name))]
    else if a.formatOk then [Format(t.options.outfile), Log(Built(t.name))]
    else [Format(t.options.outfile), onFormatError]
  }

  /** `build(options).then(() => { format(outfile); log("Built") })
      .catch(() => log("Failed to build"))`: a formatting error lands in the
      same `catch`. */
  function OneShot(t: Target, a: Attempt): (es: seq<Effect>)
    ensures |HookEffects(t.options.plugins, a)| < |es|
    ensures es[..|HookEffects(t.options.plugins, a)|] == HookEffects(t.options.plugins, a)
    ensures es[|es| - 1] == Log(if |a.errors| == 0 && a.formatOk then Built(t.name) else Failed(t.name))
  {
    HookEffects(t.options.plugins, a) + Dispatch(t, a, Log(Failed(t.name)))
  }

  /** `onRebuild(error)`: the same dispatch, without a `catch` around the
      formatting. */
  function OnRebuild(t: Target, a: Attempt): (es: seq<Effect>)
    ensures |HookEffects(t.options.plugins, a)| < |es|
    ensures es[..|HookEffects(t.options.plugins, a)|] == HookEffects(t.options.plugins, a)
    ensures es[|es| - 1] == if |a.errors| > 0 then Log(Failed(t.name))
                            else if a.formatOk then Log(Built(t.name)) else Escaped
  {
    HookEffects(t.options.plugins, a) + Dispatch(t, a, Escaped)
  }

  /** What the toolchain reports for one target: its first build and, in
      watch mode, each later rebuild. */
  datatype Session = Session(initial: Attempt, rebuilds: seq<Attempt>)

  function Rebuilds(t: Target, rs: seq<Attempt>): seq<Effect> {
    if rs == [] then [] else Rebuilds(t, rs[..|rs| - 1]) + OnRebuild(t, rs[|rs| - 1])
  }

  function TargetEffects(t: Target, s: Session): (es: seq<Effect>)
    ensures |OneShot(t, s.initial)| <= |es| && es[..|OneShot(t, s.initial)|] == OneShot(t, s.initial)
    ensures !t.options.watch || s.rebuilds == [] ==> es == OneShot(t, s.initial)
  {
    OneShot(t, s.initial) + if t.options.watch then Rebuilds(t, s.rebuilds) else []
  }

  predicate DistinctNames(ts: seq<Target>) {
    forall i, j :: 0 <= i < j < |ts| ==> ts[i].name != ts[j].name
  }

  /** The map from each target's name to its value in `vals`. */
  function ByName<V>(ts: seq<Target>, vals: seq<V>): (r: map<string, V>)
    requires |vals| == |ts| && DistinctNames(ts)
    ensures forall i :: 0 <= i < |ts| ==> ts[i].name in r && r[ts[i].name] == vals[i]
    ensures forall n :: n in r ==> exists i :: 0 <= i < |ts| && ts[i].name == n
  {
    if ts == [] then map[]
    else
      var t, p := ts[|ts| - 1], ts[..|ts| - 1];
      assert forall i :: 0 <= i < |p| ==> p[i] == ts[i] && p[i].name != t.name;
      ByName(p, vals[..|p|])[t.name := vals[|p|]]
  }

  /** The effects of a whole run, per target name. */
  function RunAll(ts: seq<Target>, sessions: map<string, Session>): (r: map<string, seq<Effect>>)
    requires DistinctNames(ts)
    requires forall i :: 0 <= i < |ts| ==> ts[i].name in sessions
    ensures forall i :: 0 <= i < |ts| ==> ts[i].name in r && r[ts[i].name] == TargetEffects(ts[i], sessions[ts[i].name])
    ensures forall n :: n in r ==> exists i :: 0 <= i < |ts| && ts[i].name == n
  {
    ByName(ts, seq(|ts|, i requires 0 <= i < |ts| => TargetEffects(ts[i], sessions[ts[i].name])))
  }
}

=== FILE: comments.dfy ===
/** The no-comments post-processor: `content.replace(/\n?\/\/.*\n/g, "")`.

    A match at position i is an optional line feed, then `//`, then the
    longest run of characters other than line terminators, then a line
    feed. Line terminators are the four `.` never matches: line feed,
    carriage return, U+2028 and U+2029. A global replace scans left to
    right, deleting the leftmost match and resuming right after it. */
module Comments {
  import opened Results

  predicate IsLineTerminator(c: char) {
    c == '\n' || c == '\r' || c == '\U{2028}' || c == '\U{2029}'
  }

  predicate NoTerminators(t: string) {
    forall k :: 0 <= k < |t| ==> !IsLineTerminator(t[k])
  }

  /** The first line terminator at or after `j`, or the end of `s`: where
      the greedy `.*` stops. */
  function LineEnd(s: string, j: nat): (e: nat)
    requires j <= |s|
    ensures j <= e <= |s|
    ensures e < |s| ==> IsLineTerminator(s[e])
    ensures NoTerminators(s[j..e])
    decreases |s| - j
  {
    if j == |s| || IsLineTerminator(s[j]) then j else LineEnd(s, j + 1)
  }

  /** `\/\/.*\n` at `j`: the end of the match, if there is one. Backtracking
      `.*` cannot help, as every shorter run is followed by a character
      that is not a line terminator. */
  function SlashCommentAt(s: string, j: nat): (r: Option<nat>)
    requires j <= |s|
    ensures r.Some? ==> j + 3 <= r.value <= |s| && s[j..j + 2] == "//" && s[r.value - 1] == '\n'
                        && NoTerminators(s[j + 2..r.value - 1])
  {
    if j + 2 <= |s| && s[j] == '/' && s[j + 1] == '/' then
      var e := LineEnd(s, j + 2);
      if e < |s| && s[e] == '\n' then Some(e + 1) else None
    else None
  }

  /** The whole pattern at `i`: the greedy `\n?` first takes a line feed and
      falls back to matching without it. */
  function MatchAt(s: string, i: nat): (r: Option<nat>)
    requires i <= |s|
    ensures r.Some? ==> i + 3 <= r.value <= |s|
  {
    if i < |s| && s[i] == '\n' && SlashCommentAt(s, i + 1).Some? then SlashCommentAt(s, i + 1)
    else SlashCommentAt(s, i)
  }

  /** The replace, from position `i` on. */
  function StripFrom(s: string, i: nat): (r: string)
    requires i <= |s|
    ensures |r| <= |s| - i
    decreases |s| - i
  {
    if i == |s| then ""
    else match MatchAt(s, i)
      case Some(e) => StripFrom(s, e)
      case None => [s[i]] + StripFrom(s, i + 1)
  }

  function StripComments(content: string): (r: string)
    ensures |r| <= |content|
  {
    StripFrom(content, 0)
  }

  /** Text the replace deletes in one step: `//`, optionally after a line
      feed, then a line with no terminator, then a line feed. */
  predicate CommentShaped(t: string) {
    && |t| >= 3
    && t[|t| - 1] == '\n'
    && ((t[..2] == "//" && NoTerminators(t[2..|t| - 1]))
        || (t[..3] == "\n//" && NoTerminators(t[3..|t| - 1])))
  }

  lemma MatchIsCommentShaped(s: string, i: nat)
    requires i <= |s| && MatchAt(s, i).Some?
    ensures CommentShaped(s[i..MatchAt(s, i).value])
  {
    var e := MatchAt(s, i).value;
    var t := s[i..e];
    if i < |s| && s[i] == '\n' && SlashCommentAt(s, i + 1).Some? {
      assert t[..3] == s[i..i + 3];
      assert t[3..|t| - 1] == s[i + 3..e - 1];
    } else {
      assert t[..2] == s[i..i + 2];
      assert t[2..|t| - 1] == s[i + 2..e - 1];
    }
  }

  /** A line with no terminator, followed by one at `e`, ends at `e`. */
  lemma {:induction false} LineEndAt(s: string, j: nat, e: nat)
    requires j <= e < |s| && NoTerminators(s[j..e]) && IsLineTerminator(s[e])
    ensures LineEnd(s, j) == e
    decreases e - j
  {
    if j < e {
      assert s[j] == s[j..e][0];
      assert s[j + 1..e] == s[j..e][1..];
      LineEndAt(s, j + 1, e);
    }
  }

  /** Comment-shaped text at `i` is matched there, through its final line
      feed. */
  lemma CommentShapedMatched(s: string, i: nat, e: nat)
    requires i <= e <= |s| && CommentShaped(s[i..e])
    ensures MatchAt(s, i) == Some(e)
  {
    var t := s[i..e];
    assert |t| == e - i;
    assert forall k :: 0 <= k < |t| ==> t[k] == s[i + k];
    if t[..2] == "//" && NoTerminators(t[2..|t| - 1]) {
      assert t[0] == '/' && t[1] == '/';
      SliceNoTerminators(s, i, e, 2);
      LineEndAt(s, i + 2, e - 1);
    } else {
      assert t[..3] == "\n//";
      assert t[0] == '\n' && t[1] == '/' && t[2] == '/';
      SliceNoTerminators(s, i, e, 3);
      LineEndAt(s, i + 3, e - 1);
    }
  }

  lemma SliceNoTerminators(s: string, i: nat, e: nat, d: nat)
    requires i + d < e <= |s| && NoTerminators(s[i..e][d..e - i - 1])
    ensures NoTerminators(s[i + d..e - 1])
  {
    var u, w := s[i..e][d..e - i - 1], s[i + d..e - 1];
    assert |u| == |w|;
    forall k | 0 <= k < |w|
      ensures !IsLineTerminator(w[k])
    {
      assert u[k] == s[i..e][d + k] == s[i + d + k] == w[k];
    }
  }

  /** The pattern matches at `i` through `e` exactly when the text between
      is comment-shaped. */
  lemma MatchIffCommentShaped(s: string, i: nat, e: nat)
    requires i <= e <= |s|
    ensures MatchAt(s, i) == Some(e) <==> CommentShaped(s[i..e])
  {
    if MatchAt(s, i) == Some(e) {
      MatchIsCommentShaped(s, i);
    }
    if CommentShaped(s[i..e]) {
      CommentShapedMatched(s, i, e);
    }
  }

  /** No comment-shaped text starts at `p`. */
  predicate NoCommentAt(s: string, p: nat)
    requires p <= |s|
  {
    forall e :: p <= e <= |s| ==> !CommentShaped(s[p..e])
  }

  lemma UnmatchedNoComment(s: string, p: nat)
    requires p <= |s| && MatchAt(s, p).None?
    ensures NoCommentAt(s, p)
  {
    forall e | p <= e <= |s|
      ensures !CommentShaped(s[p..e])
    {
      MatchIffCommentShaped(s, p, e);
    }
  }

  /** A decomposition of the input: characters kept one by one and pieces
      deleted whole. */
  datatype Piece = Keep(c: char) | Drop(text: string)

  function Text(p: Piece): string {
    match p
    case Keep(c) => [c]
    case Drop(t) => t
  }

  function Flatten(ps: seq<Piece>): string {
    if ps == [] then "" else Text(ps[0]) + Flatten(ps[1..])
  }

  function KeptText(ps: seq<Piece>): string {
    if ps == [] then ""
    else (match ps[0] case Keep(c) => [c] case Drop(_) => "") + KeptText(ps[1..])
  }

  /** Where each piece starts, for pieces laid out from position `i`. */
  function Starts(ps: seq<Piece>, i: nat): (r: seq<nat>)
    ensures |r| == |ps|
  {
    if ps == [] then [] else [i] + Starts(ps[1..], i + |Text(ps[0])|)
  }

  /** The piece at `p` is what the leftmost-match scan takes there: a kept
      character where nothing matches, a deleted piece that is exactly the
      match. */
  predicate PieceAgrees(s: string, p: nat, piece: Piece) {
    p < |s| &&
    match piece
    case Keep(c) => c == s[p] && MatchAt(s, p).None?
    case Drop(t) => MatchAt(s, p) == Some(p + |t|)
  }

  /** The pieces the replace cuts `s[i..]` into. */
  function PiecesFrom(s: string, i: nat): seq<Piece>
    requires i <= |s|
    decreases |s| - i
  {
    if i == |s| then []
    else match MatchAt(s, i)
      case Some(e) => [Drop(s[i..e])] + PiecesFrom(s, e)
      case None => [Keep(s[i])] + PiecesFrom(s, i + 1)
  }

  /** One step of the scan: the piece at `i` and where the scan resumes. */
  function Step(s: string, i: nat): (r: (Piece, nat))
    requires i < |s|
    ensures i < r.1 <= |s| && Text(r.0) == s[i..r.1]
    ensures PiecesFrom(s, i) == [r.0] + PiecesFrom(s, r.1)
    ensures PieceAgrees(s, i, r.0)
  {
    match MatchAt(s, i)
    case Some(e) => (Drop(s[i..e]), e)
    case None => (Keep(s[i]), i + 1)
  }

  lemma CoverStep(s: string, i: nat, j: nat, p: Piece, rest: seq<Piece>)
    requires i < j <= |s| && Text(p) == s[i..j] && Flatten(rest) == s[j..]
    ensures Flatten([p] + rest) == s[i..]
  {
    assert ([p] + rest)[1..] == rest;
    assert s[i..] == s[i..j] + s[j..];
  }

  /** The pieces put back together give the input. */
  lemma {:induction false} PiecesCover(s: string, i: nat)
    requires i <= |s|
    ensures Flatten(PiecesFrom(s, i)) == s[i..]
    decreases |s| - i
  {
    if i < |s| {
      var (p, j) := Step(s, i);
      PiecesCover(s, j);
      CoverStep(s, i, j, p, PiecesFrom(s, j));
    }
  }

  /** The kept pieces give the output. */
  lemma {:induction false} PiecesKept(s: string, i: nat)
    requires i <= |s|
    ensures KeptText(PiecesFrom(s, i)) == StripFrom(s, i)
    decreases |s| - i
  {
    if i < |s| {
      var ps := PiecesFrom(s, i);
      match MatchAt(s, i)
      case Some(e) =>
        PiecesKept(s, e);
        assert ps[1..] == PiecesFrom(s, e);
      case None =>
        PiecesKept(s, i + 1);
        assert ps[1..] == PiecesFrom(s, i + 1);
    }
  }

  /** Every deleted piece is comment-shaped. */
  lemma {:induction false} PiecesDropped(s: string, i: nat)
    requires i <= |s|
    ensures forall k :: 0 <= k < |PiecesFrom(s, i)| && PiecesFrom(s, i)[k].Drop? ==>
              CommentShaped(PiecesFrom(s, i)[k].text)
    decreases |s| - i
  {
    if i < |s| {
      var ps := PiecesFrom(s, i);
      match MatchAt(s, i)
      case Some(e) =>
        PiecesDropped(s, e);
        MatchIsCommentShaped(s, i);
        assert ps[1..] == PiecesFrom(s, e);
      case None =>
        PiecesDropped(s, i + 1);
        assert ps[1..] == PiecesFrom(s, i + 1);
    }
  }

  /** Every piece of `ps`, laid out from `i`, agrees with the scan. */
  predicate AllAgree(s: string, ps: seq<Piece>, i: nat) {
    ps == [] || (PieceAgrees(s, i, ps[0]) && AllAgree(s, ps[1..], i + |Text(ps[0])|))
  }

  lemma {:induction false} AllAgreeAt(s: string, ps: seq<Piece>, i: nat, k: nat)
    requires AllAgree(s, ps, i) && k < |ps|
    ensures PieceAgrees(s, Starts(ps, i)[k], ps[k])
    decreases k
  {
    if k > 0 {
      AllAgreeAt(s, ps[1..], i + |Text(ps[0])|, k - 1);
    }
  }

  /** Every piece is what the scan takes at its start. */
  lemma {:induction false} PiecesLeftmost(s: string, i: nat)
    requires i <= |s|
    ensures AllAgree(s, PiecesFrom(s, i), i)
    decreases |s| - i
  {
    if i < |s| {
      var (p, j) := Step(s, i);
      PiecesLeftmost(s, j);
      assert ([p] + PiecesFrom(s, j))[1..] == PiecesFrom(s, j);
    }
  }

  /** The output is the input with disjoint comment-shaped pieces deleted:
      the pieces put back together give the input, the kept ones give the
      output, every deleted one is comment-shaped, and no comment-shaped
      text starts where a character is kept. */
  lemma StripDeletesComments(s: string)
    ensures Flatten(PiecesFrom(s, 0)) == s
    ensures KeptText(PiecesFrom(s, 0)) == StripComments(s)
    ensures forall k :: 0 <= k < |PiecesFrom(s, 0)| && PiecesFrom(s, 0)[k].Drop? ==>
              CommentShaped(PiecesFrom(s, 0)[k].text)
    ensures forall k :: 0 <= k < |PiecesFrom(s, 0)| && PiecesFrom(s, 0)[k].Keep? ==>
              Starts(PiecesFrom(s, 0), 0)[k] < |s| && NoCommentAt(s, Starts(PiecesFrom(s, 0), 0)[k])
  {
    PiecesCover(s, 0);
    PiecesKept(s, 0);
    PiecesDropped(s, 0);
    KeptPiecesNoComment(s);
  }

  lemma KeptPiecesNoComment(s: string)
    ensures forall k :: 0 <= k < |PiecesFrom(s, 0)| && PiecesFrom(s, 0)[k].Keep? ==>
              Starts(PiecesFrom(s, 0), 0)[k] < |s| && NoCommentAt(s, Starts(PiecesFrom(s, 0), 0)[k])
  {
    var ps, st := PiecesFrom(s, 0), Starts(PiecesFrom(s, 0), 0);
    PiecesLeftmost(s, 0);
    forall k | 0 <= k < |ps| && ps[k].Keep?
      ensures st[k] < |s| && NoCommentAt(s, st[k])
    {
      AllAgreeAt(s, ps, 0, k);
      UnmatchedNoComment(s, st[k]);
    }
  }

  predicate HasDoubleSlash(s: string) {
    exists j :: 0 <= j < |s| - 1 && s[j] == '/' && s[j + 1] == '/'
  }

  /** Without a `//` nothing matches, so the content comes back unchanged. */
  lemma {:induction false} NoSlashesUnchanged(s: string, i: nat)
    requires i <= |s| && !HasDoubleSlash(s)
    ensures StripFrom(s, i) == s[i..]
    decreases |s| - i
  {
    if i < |s| {
      assert MatchAt(s, i).None?;
      NoSlashesUnchanged(s, i + 1);
      assert s[i..] == [s[i]] + s[i + 1..];
    }
  }

  /** The scan as a loop over positions, the way the global replace runs. */
  method ReplaceAll(content: string) returns (out: string)
    ensures out == StripComments(content)
    ensures |out| <= |content|
  {
    out := "";
    var i := 0;
    while i < |content|
      invariant i <= |content|
      invariant out + StripFrom(content, i) == StripComments(content)
      decreases |content| - i
    {
      match MatchAt(content, i)
      case Some(e) =>
        i := e;
      case None =>
        out := out + [content[i]];
        i := i + 1;
    }
  }

  /** A comment line is deleted together with the line feed before it, which
      joins its neighbours. */
  lemma CommentLineJoinsNeighbours()
    ensures StripComments("a\n// c\nb") == "ab"
  {
  }

  /** A `//` comment on the last line, with no line feed after it, stays. */
  lemma FinalCommentKept()
    ensures StripComments("a\n// c") == "a\n// c"
  {
  }

  /** A comment ended by CR LF stays: `.` stops at the carriage return. */
  lemma CrlfCommentKept()
    ensures StripComments("// c\r\nx") == "// c\r\nx"
  {
  }

  /** A `//` after code, even inside a string literal, is deleted through
      the line feed. */
  lemma UrlInStringTruncated()
    ensures StripComments("\"a://b\"\nc") == "\"a:c"
  {
    var s := "\"a://b\"\nc";
    assert MatchAt(s, 3) == Some(8);
    assert StripFrom(s, 8) == "c";
    assert StripFrom(s, 3) == "c";
  }
}

=== FILE: deriver.dfy ===
/** `getConfigs`: the bundle and plugin configurations are loaded and
    expanded into the webpack configuration, kept here as a plain record. */
module Deriver {
  import opened Results
  import opened Json
  import opened Host
  import opened Patterns
  import opened Rules
  import opened Loader

  /** `output.library`: assigned to a global for ZLibrary plugins, a
      CommonJS default export otherwise. */
  datatype Library = AssignLibrary(name: string) | CommonJs2Library(exportName: string)

  datatype Output = Output(filename: string, path: string, library: Library)

  datatype WebpackPlugin = ProvidePlugin(provide: map<string, string>) | ProgressPlugin

  /** The Terser options of the single minimizer. */
  datatype TerserOptions = TerserOptions(compressDefaults: bool, comments: bool, mangle: bool)

  datatype WebpackConfig = WebpackConfig(
    mode: string,
    watch: bool,
    target: string,
    entry: string,
    output: Output,
    extensions: seq<string>,
    rules: seq<Rule>,
    externals: map<string, string>,
    plugins: seq<WebpackPlugin>,
    minimizer: TerserOptions)

  /** The three values `getConfigs` returns, with the warnings logged on
      the way. */
  datatype Configs = Configs(
    webpack: WebpackConfig,
    plugin: Loaded,
    bundle: seq<Field>,
    warnings: seq<Warning>)

  /** Host-provided modules, resolved from globals at run time. */
  const Externals: map<string, string> := map[
    "react" := "var BdApi.React",
    "react-dom" := "var BdApi.ReactDOM",
    "@zlibrary" := "var Library",
    "@zlibrary/plugin" := "var BasePlugin"
  ]

  const Extensions := [".js", ".jsx", ".ts", ".tsx"]

  /** The library convention `zlibrary` selects. */
  function LibraryFor(zlibrary: Option<Value>): (l: Library)
    ensures l == AssignLibrary("Plugin") <==> Present(zlibrary)
    ensures l == CommonJs2Library("default") <==> !Present(zlibrary)
  {
    if Present(zlibrary) then AssignLibrary("Plugin") else CommonJs2Library("default")
  }

  /** The entry directory: the bundle configuration's `entry`, expanded
      and joined onto the working directory. */
  function EntryDir(env: Env, bundle: seq<Field>, plugin: string): (d: string)
    requires "entry" in Keys(bundle)
    ensures bundle == DefaultBundleConfig ==> d == env.join(env.cwd, env.parseString(Str("src"), plugin))
  {
    env.join(env.cwd, env.parseString(Lookup(bundle, "entry").value, plugin))
  }

  /** `entry`: `pluginConfig.entry` joined onto the entry directory when it
      is truthy, the entry directory itself otherwise. `path.join` throws on
      a truthy value that is not a string. */
  function EntryPoint(env: Env, entryDir: string, entry: Option<Value>): (r: Result<string, ConfigError>)
    ensures !Present(entry) ==> r == Ok(entryDir)
    ensures Present(entry) && entry.value.Str? ==> r == Ok(env.join(entryDir, entry.value.s))
    ensures Present(entry) && !entry.value.Str? ==> r == Err(EntryNotString(entry.value))
  {
    if !Present(entry) then Ok(entryDir)
    else if entry.value.Str? then Ok(env.join(entryDir, entry.value.s))
    else Err(EntryNotString(entry.value))
  }

  /** `pluginConfig.meta.name` as `+` converts it to a string. */
  function MetaName(meta: seq<Field>): (n: string)
    requires "name" in Keys(meta)
    ensures Lookup(meta, "name").value.Str? ==> n == Lookup(meta, "name").value.s
    ensures Lookup(meta, "name").value.Num? ==> n == IntToString(Lookup(meta, "name").value.n)
  {
    ToJsString(Lookup(meta, "name").value)
  }

  /** The webpack configuration built from loaded configurations. */
  function WebpackConfigFor(env: Env, plugin: string, development: bool, bundle: seq<Field>, entryDir: string,
                            loaded: Loaded): (r: Result<WebpackConfig, ConfigError>)
    requires "filename" in Keys(bundle) && "output" in Keys(bundle) && "name" in Keys(loaded.meta)
    ensures r.Ok? <==> EntryPoint(env, entryDir, Lookup(loaded.config, "entry")).Ok?
    ensures r.Err? ==> r.error == EntryPoint(env, entryDir, Lookup(loaded.config, "entry")).error
    ensures r.Ok? ==>
              var w := r.value;
              && w.mode == "production" && w.target == "node"
              && w.extensions == [".js", ".jsx", ".ts", ".tsx"]
              && w.plugins == [ProvidePlugin(map["React" := "react"]), ProgressPlugin]
              && w.entry == EntryPoint(env, entryDir, Lookup(loaded.config, "entry")).value
              && (w.output.library == AssignLibrary("Plugin") <==> Present(Lookup(loaded.config, "zlibrary")))
              && (w.output.library == CommonJs2Library("default") <==> !Present(Lookup(loaded.config, "zlibrary")))
              && w.externals == Externals
              && w.rules == ModuleRules(env.styleLoader, MetaName(loaded.meta))
              && w.minimizer == TerserOptions(false, false, false)
              && w.watch == development
              && w.output.filename == env.parseString(Lookup(bundle, "filename").value, plugin)
              && w.output.path == env.join(env.cwd, env.parseString(Lookup(bundle, "output").value, plugin))
  {
    var entry :- EntryPoint(env, entryDir, Lookup(loaded.config, "entry"));
    var output := Output(
      env.parseString(Lookup(bundle, "filename").value, plugin),
      env.join(env.cwd, env.parseString(Lookup(bundle, "output").value, plugin)),
      LibraryFor(Lookup(loaded.config, "zlibrary")));
    Ok(WebpackConfig(
      "production",
      development,
      "node",
      entry,
      output,
      Extensions,
      ModuleRules(env.styleLoader, MetaName(loaded.meta)),
      Externals,
      [ProvidePlugin(map["React" := "react"]), ProgressPlugin],
      TerserOptions(false, false, false)))
  }

  /** `getConfigs`: each step may throw, and the first that does is the
      outcome; when none does, the three configurations are returned. */
  function GetConfigs(env: Env, plugin: string, development: bool): (r: Result<Configs, ConfigError>)
    ensures GetBundleConfig(env).Err? ==> r == Err(GetBundleConfig(env).error)
    ensures GetBundleConfig(env).Ok? ==>
              var dir := EntryDir(env, GetBundleConfig(env).value, plugin);
              && (!env.isDirectory(dir) ==> r == Err(MissingEntryDirectory(dir)))
              && (env.isDirectory(dir) && GetPluginConfig(env, dir, plugin).Err? ==>
                    r == Err(GetPluginConfig(env, dir, plugin).error))
              && (env.isDirectory(dir) && GetPluginConfig(env, dir, plugin).Ok? ==>
                    var entry := Lookup(GetPluginConfig(env, dir, plugin).value.config, "entry");
                    && (r.Ok? <==> EntryPoint(env, dir, entry).Ok?)
                    && (r.Err? ==> r == Err(EntryNotString(entry.value))))
    ensures r.Ok? ==>
              && GetBundleConfig(env) == Ok(r.value.bundle)
              && env.isDirectory(EntryDir(env, r.value.bundle, plugin))
              && GetPluginConfig(env, EntryDir(env, r.value.bundle, plugin), plugin) == Ok(r.value.plugin)
              && r.value.warnings == r.value.plugin.warnings
              && WebpackConfigFor(env, plugin, development, r.value.bundle, EntryDir(env, r.value.bundle, plugin),
                                  r.value.plugin) == Ok(r.value.webpack)
  {
    var bundle :- GetBundleConfig(env);
    var entryDir := EntryDir(env, bundle, plugin);
    if !env.isDirectory(entryDir) then Err(MissingEntryDirectory(entryDir))
    else
      var loaded :- GetPluginConfig(env, entryDir, plugin);
      var webpack :- WebpackConfigFor(env, plugin, development, bundle, entryDir, loaded);
      Ok(Configs(webpack, loaded, bundle, loaded.warnings))
  }
}

=== FILE: deriver_facts.dfy ===
/** Properties of the derived webpack configuration that relate several
    calls: what the `zlibrary` flag and the development switch change, and
    what they leave alone. */
module DeriverFacts {
  import opened Results
  import opened Json
  import opened Host
  import opened Loader
  import opened Rules
  import opened Deriver

  /** An empty `entry` string is falsy, so the entry directory itself is
      bundled. */
  lemma EmptyEntryFallsBack(env: Env, entryDir: string)
    ensures EntryPoint(env, entryDir, Some(Str(""))) == Ok(entryDir)
    ensures EntryPoint(env, entryDir, None) == Ok(entryDir)
  {
    assert !Truthy(Str(""));
  }

  /** Two plugin configurations that differ only in `zlibrary` give webpack
      configurations that differ only in the output library: in particular
      the externals map is the same whichever convention is chosen. */
  lemma ZLibraryOnlyChangesLibrary(env: Env, plugin: string, development: bool, bundle: seq<Field>,
                                   entryDir: string, loaded: Loaded, zlibrary: Value)
    requires "filename" in Keys(bundle) && "output" in Keys(bundle) && "name" in Keys(loaded.meta)
    requires "zlibrary" !in Keys(loaded.config)
    requires WebpackConfigFor(env, plugin, development, bundle, entryDir, loaded).Ok?
    ensures var with := loaded.(config := Put(loaded.config, "zlibrary", zlibrary));
            var a := WebpackConfigFor(env, plugin, development, bundle, entryDir, loaded);
            var b := WebpackConfigFor(env, plugin, development, bundle, entryDir, with);
            && b.Ok?
            && b.value.externals == a.value.externals
            && b.value.rules == a.value.rules
            && b.value.entry == a.value.entry
            && a.value.output.library == CommonJs2Library("default")
            && (b.value.output.library == AssignLibrary("Plugin") <==> Truthy(zlibrary))
            && b.value == a.value.(output := a.value.output.(library := b.value.output.library))
  {
    var with := loaded.(config := Put(loaded.config, "zlibrary", zlibrary));
    assert Lookup(with.config, "entry") == Lookup(loaded.config, "entry");
    assert Lookup(with.config, "zlibrary") == Some(zlibrary);
    assert Lookup(loaded.config, "zlibrary") == None;
  }

  /** `argv.development` only switches webpack's watch flag. */
  lemma DevelopmentOnlyWatches(env: Env, plugin: string, bundle: seq<Field>, entryDir: string, loaded: Loaded)
    requires "filename" in Keys(bundle) && "output" in Keys(bundle) && "name" in Keys(loaded.meta)
    ensures var dev := WebpackConfigFor(env, plugin, true, bundle, entryDir, loaded);
            var prod := WebpackConfigFor(env, plugin, false, bundle, entryDir, loaded);
            && (dev.Ok? <==> prod.Ok?)
            && (dev.Ok? ==> dev.value.watch && !prod.value.watch && dev.value.(watch := false) == prod.value)
  {
  }

  lemma DefaultMetaName(plugin: string)
    ensures "name" in Keys(DefaultMeta(plugin)) && MetaName(DefaultMeta(plugin)) == plugin
  {
    DefaultMetaKeysAccepted(plugin);
    LookupField(DefaultMeta(plugin), 0);
  }

  /** With neither `bundlebd.config.json` nor `config.json`, and the default
      entry directory in place, everything comes from the defaults: the
      entry directory is `src` under the working directory, the output is
      `[plugin].plugin.js` under `dist`, the CommonJS library is used, CSS
      class names start with the plugin argument, and nothing is logged. */
  lemma NoConfigFiles(env: Env, plugin: string, development: bool)
    requires env.file(env.join(env.cwd, BundleConfigFile)).Missing?
    requires env.isDirectory(env.join(env.cwd, env.parseString(Str("src"), plugin)))
    requires env.file(env.join(env.join(env.cwd, env.parseString(Str("src"), plugin)), PluginConfigFile)).Missing?
    ensures var r := GetConfigs(env, plugin, development);
            var dir := env.join(env.cwd, env.parseString(Str("src"), plugin));
            && r.Ok?
            && r.value.bundle == DefaultBundleConfig
            && r.value.plugin.meta == DefaultMeta(plugin)
            && r.value.warnings == []
            && r.value.webpack.entry == dir
            && r.value.webpack.output.filename == env.parseString(Str("[plugin].plugin.js"), plugin)
            && r.value.webpack.output.path == env.join(env.cwd, env.parseString(Str("dist"), plugin))
            && r.value.webpack.output.library == CommonJs2Library("default")
            && r.value.webpack.rules == ModuleRules(env.styleLoader, plugin)
  {
    var dir := env.join(env.cwd, env.parseString(Str("src"), plugin));
    assert EntryDir(env, DefaultBundleConfig, plugin) == dir;
    var loaded := Loaded([Field("meta", Obj(DefaultMeta(plugin)))], DefaultMeta(plugin), []);
    assert GetPluginConfig(env, dir, plugin) == Ok(loaded);
    assert Lookup(loaded.config, "entry") == None;
    assert Lookup(loaded.config, "zlibrary") == None;
    assert Lookup(DefaultBundleConfig, "filename") == Some(Str("[plugin].plugin.js"));
    assert Lookup(DefaultBundleConfig, "output") == Some(Str("dist"));
    DefaultMetaName(plugin);
  }
}

=== FILE: externals.dfy ===
/** The external-plugin of the library build: every import whose specifier
    matches `/^[^./]|^\.[^./]|^\.\.[^/]/` is left to the runtime. */
module Externals {
  import opened Results

  predicate StartsWith(s: string, prefix: string) {
    |prefix| <= |s| && s[..|prefix|] == prefix
  }

  /** The filter regex, alternative by alternative: a first character other
      than `.` and `/`; a `.` then a character other than `.` and `/`; `..`
      then a character other than `/`. A negated class matches any other
      character, line terminators included. */
  function IsExternal(spec: string): (r: bool)
    ensures r <==> && spec != ""
                   && !StartsWith(spec, "/")
                   && !StartsWith(spec, "./")
                   && !StartsWith(spec, "../")
                   && spec != "."
                   && spec != ".."
  {
    || (|spec| >= 1 && spec[0] != '.' && spec[0] != '/')
    || (|spec| >= 2 && spec[0] == '.' && spec[1] != '.' && spec[1] != '/')
    || (|spec| >= 3 && spec[0] == '.' && spec[1] == '.' && spec[2] != '/')
  }

  datatype Resolution = Resolution(path: string, external: bool)

  /** The `onResolve` callback: matching specifiers are marked external under
      their own path; the rest are left to esbuild's own resolution. */
  function OnResolve(spec: string): (r: Option<Resolution>)
    ensures r.Some? <==> IsExternal(spec)
    ensures r.Some? ==> r.value == Resolution(spec, true)
  {
    if IsExternal(spec) then Some(Resolution(spec, true)) else None
  }

  lemma ExternalExamples()
    ensures IsExternal("react") && IsExternal("@zlibrary/plugin") && IsExternal(".x") && IsExternal("...")
    ensures !IsExternal("./a") && !IsExternal("../a") && !IsExternal("/a")
    ensures !IsExternal("") && !IsExternal(".") && !IsExternal("..")
  {
  }
}

=== FILE: host.dfy ===
/** What the configuration code takes from its surroundings: the working
    directory, `path.join`, a snapshot of the files it reads, the existence
    check behind `ensureDirExists`, the template expander `parseString`,
    and the resolved path of the bundled style loader. All of them are
    opaque here and are passed in as values. */
module Host {
  import opened Json

  /** What `existsSync` followed by `JSON.parse(readFileSync(...))` finds at
      a path. */
  datatype FileState = Missing | Malformed | Parsed(value: Value)

  datatype Env = Env(
    cwd: string,
    join: (string, string) -> string,
    file: string -> FileState,
    isDirectory: string -> bool,
    parseString: (Value, string) -> string,
    styleLoader: string)

  /** The fatal configuration errors: each aborts `getConfigs` before any
      bundler configuration exists. `MissingEntryDirectory` is the one
      `ensureDirExists` raises; `NullConfig` is the `TypeError` of reading
      `meta` off a `config.json` holding `null`; `EntryNotString` is the
      `TypeError` `path.join` raises for a truthy non-string `entry`. */
  datatype ConfigError =
    | MalformedJson(path: string)
    | MissingEntryDirectory(dir: string)
    | NullConfig(path: string)
    | EntryNotString(entry: Value)

}

=== FILE: json.dfy ===
/** Parsed JSON values and the handful of JavaScript object operations the
    configuration loader relies on: property lookup, `Object.assign`, object
    spread, truthiness and string conversion.

    A JavaScript object is an ordered list of fields. Keys are kept in
    insertion order, which is the order `for ... in` visits them for the
    keys that occur here. */
module Json {
  import opened Results

  datatype Value =
    | Null
    | Bool(b: bool)
    | Num(n: int)
    | Str(s: string)
    | Arr(items: seq<Value>)
    | Obj(fields: seq<Field>)

  datatype Field = Field(key: string, val: Value)

  /** JavaScript truthiness: `null`, `false`, `0` and `""` are falsy. */
  predicate Truthy(v: Value) {
    match v
    case Null => false
    case Bool(b) => b
    case Num(n) => n != 0
    case Str(s) => s != ""
    case Arr(_) => true
    case Obj(_) => true
  }

  /** Truthiness of a property read, where `None` is `undefined`. */
  predicate Present(v: Option<Value>) {
    v.Some? && Truthy(v.value)
  }

  function Keys(o: seq<Field>): (ks: seq<string>)
    ensures |ks| == |o|
    ensures forall i :: 0 <= i < |o| ==> ks[i] == o[i].key
  {
    if o == [] then [] else Keys(o[..|o| - 1]) + [o[|o| - 1].key]
  }

  predicate DistinctKeys(o: seq<Field>) {
    forall i, j :: 0 <= i < j < |o| ==> o[i].key != o[j].key
  }

  /** Property read `o[k]`. A JavaScript object never holds a key twice; on a
      list that does, the last field wins, as it would after assigning the
      fields one by one. */
  function Lookup(o: seq<Field>, k: string): (r: Option<Value>)
    ensures r.None? <==> k !in Keys(o)
    ensures r.Some? ==> Field(k, r.value) in o
  {
    if o == [] then None
    else if o[|o| - 1].key == k then Some(o[|o| - 1].val)
    else Lookup(o[..|o| - 1], k)
  }

  /** In an object with distinct keys, each field is found under its key. */
  lemma LookupField(o: seq<Field>, i: nat)
    requires DistinctKeys(o) && i < |o|
    ensures Lookup(o, o[i].key) == Some(o[i].val)
  {
  }

  /** Property read on an arbitrary value. The four names read by the loader
      (`meta`, `changelog`, `zlibrary`, `entry`) are not properties of
      strings, arrays, numbers or booleans, so those yield `undefined`.
      Reading a property of `null` throws; callers rule that out first. */
  function Property(v: Value, k: string): Option<Value>
    requires v != Null
  {
    match v
    case Obj(fs) => Lookup(fs, k)
    case _ => None
  }

  /** Replaces the value of every field named `k`. */
  function Overwrite(o: seq<Field>, k: string, v: Value): (r: seq<Field>)
    ensures |r| == |o|
    ensures forall i :: 0 <= i < |o| ==> r[i] == if o[i].key == k then Field(k, v) else o[i]
  {
    if o == [] then []
    else
      var last := o[|o| - 1];
      Overwrite(o[..|o| - 1], k, v) + [if last.key == k then Field(k, v) else last]
  }

  /** Overwriting keeps every key in place, makes `k` read `v` and leaves
      every other key's value alone. */
  lemma {:induction false} OverwriteLookup(o: seq<Field>, k: string, v: Value)
    ensures Keys(Overwrite(o, k, v)) == Keys(o)
    ensures k in Keys(o) ==> Lookup(Overwrite(o, k, v), k) == Some(v)
    ensures forall j :: j != k ==> Lookup(Overwrite(o, k, v), j) == Lookup(o, j)
    decreases |o|
  {
    if o != [] {
      var p, last := o[..|o| - 1], o[|o| - 1];
      OverwriteLookup(p, k, v);
      var r := Overwrite(o, k, v);
      assert r[..|r| - 1] == Overwrite(p, k, v);
    }
  }

  /** Property assignment `o[k] = v`: an existing key keeps its position, a
      new key is appended. */
  function Put(o: seq<Field>, k: string, v: Value): (r: seq<Field>)
    ensures Keys(r) == if k in Keys(o) then Keys(o) else Keys(o) + [k]
    ensures Lookup(r, k) == Some(v)
    ensures forall j :: j != k ==> Lookup(r, j) == Lookup(o, j)
    ensures DistinctKeys(o) ==> DistinctKeys(r)
  {
    if k in Keys(o) then
      OverwriteLookup(o, k, v);
      Overwrite(o, k, v)
    else
      var r := o + [Field(k, v)];
      assert r[..|r| - 1] == o;
      r
  }

  /** `Object.assign(target, source)` where `source` is the list of the
      source's own enumerable fields: each is assigned in order. */
  function Assign(target: seq<Field>, source: seq<Field>): (r: seq<Field>)
    ensures forall k :: Lookup(r, k) == if k in Keys(source) then Lookup(source, k) else Lookup(target, k)
    ensures forall k :: k in Keys(r) <==> k in Keys(target) || k in Keys(source)
    ensures Keys(target) <= Keys(r)
    ensures DistinctKeys(target) ==> DistinctKeys(r)
  {
    if source == [] then target
    else
      var last := source[|source| - 1];
      var prefix := source[..|source| - 1];
      assert Keys(source) == Keys(prefix) + [last.key];
      Put(Assign(target, prefix), last.key, last.val)
  }

  /** `Object.assign` copies the source's fields one at a time. */
  lemma AssignSnoc(target: seq<Field>, source: seq<Field>, f: Field)
    ensures Assign(target, source + [f]) == Put(Assign(target, source), f.key, f.val)
  {
    assert (source + [f])[..|source + [f]| - 1] == source;
  }

  lemma PutExisting(o: seq<Field>, k: string, v: Value)
    requires k in Keys(o)
    ensures Put(o, k, v) == Overwrite(o, k, v)
  {
  }

  lemma PutNew(o: seq<Field>, k: string, v: Value)
    requires k !in Keys(o)
    ensures Put(o, k, v) == o + [Field(k, v)]
  {
  }

  /** Decimal rendering of a natural number, as `String(n)` gives it. */
  function NatToString(n: nat): (s: string)
    ensures |s| >= 1
    ensures forall i :: 0 <= i < |s| ==> '0' <= s[i] <= '9'
    ensures (|s| > 1) ==> s[0] != '0'
  {
    if n < 10 then ["0123456789"[n]] else NatToString(n / 10) + ["0123456789"[n % 10]]
  }

  /** The number a string of decimal digits spells. */
  function DigitsValue(s: string): nat
    requires forall i :: 0 <= i < |s| ==> '0' <= s[i] <= '9'
  {
    if s == [] then 0 else 10 * DigitsValue(s[..|s| - 1]) + (s[|s| - 1] as int - '0' as int)
  }

  /** Reading the digits back gives the number. */
  lemma {:induction false} NatToStringRoundTrip(n: nat)
    ensures DigitsValue(NatToString(n)) == n
  {
    var s := NatToString(n);
    DigitValue(n % 10);
    if n >= 10 {
      NatToStringRoundTrip(n / 10);
      assert s[..|s| - 1] == NatToString(n / 10);
      assert s[|s| - 1] == "0123456789"[n % 10];
    }
  }

  /** The digit character for `d` spells `d`. */
  lemma DigitValue(d: nat)
    requires d < 10
    ensures "0123456789"[d] as int - '0' as int == d
  {
    var digits := "0123456789";
    assert digits[0] == '0' && digits[1] == '1' && digits[2] == '2' && digits[3] == '3' && digits[4] == '4';
    assert digits[5] == '5' && digits[6] == '6' && digits[7] == '7' && digits[8] == '8' && digits[9] == '9';
  }

  function IntToString(n: int): (s: string)
    ensures |s| >= 1
    ensures s[0] == '-' <==> n < 0
    ensures n >= 0 ==> s == NatToString(n)
    ensures n < 0 ==> s[1..] == NatToString(-n)
  {
    if n < 0 then "-" + NatToString(-n) else NatToString(n)
  }

  /** After the sign, the digits of `String(n)` read back as `|n|`. */
  lemma IntToStringRoundTrip(n: int)
    ensures var s := IntToString(n); var digits := if n < 0 then s[1..] else s;
      && (forall i :: 0 <= i < |digits| ==> '0' <= digits[i] <= '9')
      && DigitsValue(digits) == if n < 0 then -n else n
  {
    NatToStringRoundTrip(if n < 0 then -n else n);
  }

  /** Distinct integers render differently. */
  lemma NatToStringInjective(a: nat, b: nat)
    requires NatToString(a) == NatToString(b)
    ensures a == b
  {
    NatToStringRoundTrip(a);
    NatToStringRoundTrip(b);
  }

  lemma IntToStringInjective(a: int, b: int)
    requires IntToString(a) == IntToString(b)
    ensures a == b
  {
    var s := IntToString(a);
    if a < 0 {
      assert b < 0;
      assert s[1..] == NatToString(-a);
      assert s[1..] == NatToString(-b);
      NatToStringInjective(-a, -b);
    } else {
      assert b >= 0;
      NatToStringInjective(a, b);
    }
  }

  /** The own enumerable fields of a value, as `Object.assign` and object
      spread copy them: an object's fields; an array's or a string's
      elements under their index keys; nothing for `null`, booleans and
      numbers. */
  function OwnEnumerable(v: Value): (fs: seq<Field>)
    ensures v.Obj? ==> fs == v.fields
    ensures v.Arr? ==> |fs| == |v.items| && forall i :: 0 <= i < |fs| ==> fs[i] == Field(NatToString(i), v.items[i])
    ensures v.Str? ==> |fs| == |v.s| && forall i :: 0 <= i < |fs| ==> fs[i] == Field(NatToString(i), Str([v.s[i]]))
    ensures v.Null? || v.Bool? || v.Num? ==> fs == []
  {
    match v
    case Obj(fs) => fs
    case Arr(xs) => seq(|xs|, i requires 0 <= i < |xs| => Field(NatToString(i), xs[i]))
    case Str(s) => seq(|s|, i requires 0 <= i < |s| => Field(NatToString(i), Str([s[i]])))
    case _ => []
  }

  /** Object spread `{...v}`: a fresh object holding `v`'s own enumerable
      fields. */
  function Spread(v: Value): (r: seq<Field>)
    ensures forall k :: Lookup(r, k) == Lookup(OwnEnumerable(v), k)
    ensures DistinctKeys(r)
  {
    Assign([], OwnEnumerable(v))
  }

  function Join(parts: seq<string>, sep: string): string {
    if parts == [] then ""
    else if |parts| == 1 then parts[0]
    else Join(parts[..|parts| - 1], sep) + sep + parts[|parts| - 1]
  }

  /** `String(v)`, as `+` applies it when the other operand is a string.
      Array elements that are `null` render as the empty string. */
  function ToJsString(v: Value): (r: string)
    ensures v.Str? ==> r == v.s
    ensures v.Num? ==> r == IntToString(v.n)
    ensures v.Obj? ==> r == "[object Object]"
  {
    match v
    case Null => "null"
    case Bool(b) => if b then "true" else "false"
    case Num(n) => IntToString(n)
    case Str(s) => s
    case Arr(xs) =>
      Join(seq(|xs|, i requires 0 <= i < |xs| => if xs[i] == Null then "" else ToJsString(xs[i])), ",")
    case Obj(_) => "[object Object]"
  }
}

=== FILE: loader.dfy ===
/** Configuration loading: the bundle configuration (`bundlebd.config.json`
    merged onto defaults) and the plugin configuration (`config.json` under
    the entry directory, whose `meta` is merged onto defaults and filtered
    against a closed list of keys). Warnings are returned, not logged. */
module Loader {
  import opened Results
  import opened Json
  import opened Host

  const BundleConfigFile := "bundlebd.config.json"
  const PluginConfigFile := "config.json"

  const DefaultBundleConfig: seq<Field> := [
    Field("entry", Str("src")),
    Field("output", Str("dist")),
    Field("filename", Str("[plugin].plugin.js"))
  ]

  /** `getBundleConfig`: the user's file, if any, is assigned onto the
      defaults; user keys win and unknown keys are kept. */
  function GetBundleConfig(env: Env): (r: Result<seq<Field>, ConfigError>)
    ensures env.file(env.join(env.cwd, BundleConfigFile)).Missing? ==> r == Ok(DefaultBundleConfig)
    ensures env.file(env.join(env.cwd, BundleConfigFile)).Malformed? ==>
              r == Err(MalformedJson(env.join(env.cwd, BundleConfigFile)))
    ensures r.Ok? ==> DistinctKeys(r.value) && "entry" in Keys(r.value) && "output" in Keys(r.value)
                      && "filename" in Keys(r.value)
    ensures env.file(env.join(env.cwd, BundleConfigFile)).Parsed? ==>
              var user := OwnEnumerable(env.file(env.join(env.cwd, BundleConfigFile)).value);
              && r.Ok?
              && (forall k :: Lookup(r.value, k) ==
                    if k in Keys(user) then Lookup(user, k) else Lookup(DefaultBundleConfig, k))
              && (forall k :: k in Keys(r.value) <==> k in Keys(DefaultBundleConfig) || k in Keys(user))
  {
    var path := env.join(env.cwd, BundleConfigFile);
    assert Keys(DefaultBundleConfig) == ["entry", "output", "filename"];
    match env.file(path)
    case Missing => Ok(DefaultBundleConfig)
    case Malformed => Err(MalformedJson(path))
    case Parsed(v) => Ok(Assign(DefaultBundleConfig, OwnEnumerable(v)))
  }

  const AcceptedMetaKeys: seq<string> := [
    "name", "author", "description", "version", "invite", "authorId",
    "authorLink", "donate", "patreon", "website", "source", "updateUrl"
  ]

  function DefaultMeta(plugin: string): seq<Field> {
    [
      Field("name", Str(plugin)),
      Field("author", Str("Unknown")),
      Field("description", Str("Plugin bundled with BundleBD")),
      Field("version", Str("1.0.0"))
    ]
  }

  datatype Warning = InvalidMetaKey(key: string) | ChangelogWithoutZLibrary

  /** The logged text of a warning: an invalid key is quoted in it. */
  function WarningMessage(w: Warning): (m: string)
    ensures w.InvalidMetaKey? ==> 18 + |w.key| <= |m| && m[18..18 + |w.key|] == w.key && m[17] == '\''
    ensures w.InvalidMetaKey? ==> m[..18] == "Invalid meta key '" && m[18 + |w.key|..] == "' in config.json"
  {
    match w
    case InvalidMetaKey(k) => "Invalid meta key '" + k + "' in config.json"
    case ChangelogWithoutZLibrary => "Changelogs are currently only supported for plugins using ZLibrary"
  }

  /** The fields the `for ... in` loop that deletes every key outside
      `allowed` leaves behind. */
  function KeptFields(o: seq<Field>, allowed: seq<string>): (r: seq<Field>)
    ensures |r| <= |o|
    ensures forall i :: 0 <= i < |r| ==> r[i].key in allowed
    ensures forall i :: 0 <= i < |r| ==> r[i] in o
  {
    if o == [] then []
    else
      var last := o[|o| - 1];
      var rest := KeptFields(o[..|o| - 1], allowed);
      if last.key in allowed then rest + [last] else rest
  }

  /** The keys the same loop deletes, in visiting order: one warning each. */
  function DroppedKeys(o: seq<Field>, allowed: seq<string>): (r: seq<string>)
    ensures |r| <= |o|
    ensures forall i :: 0 <= i < |r| ==> r[i] !in allowed
  {
    if o == [] then []
    else
      var last := o[|o| - 1];
      var rest := DroppedKeys(o[..|o| - 1], allowed);
      if last.key in allowed then rest else rest + [last.key]
  }

  /** One more field: the loop visits it last. */
  lemma FilterSnoc(o: seq<Field>, f: Field, allowed: seq<string>)
    ensures KeptFields(o + [f], allowed) == if f.key in allowed then KeptFields(o, allowed) + [f] else KeptFields(o, allowed)
    ensures DroppedKeys(o + [f], allowed) == if f.key in allowed then DroppedKeys(o, allowed) else DroppedKeys(o, allowed) + [f.key]
    ensures Keys(o + [f]) == Keys(o) + [f.key]
  {
    assert (o + [f])[..|o + [f]| - 1] == o;
  }

  /** Every allowed key reads the same before and after the filter. */
  lemma {:induction false} KeptLookup(o: seq<Field>, allowed: seq<string>, k: string)
    requires k in allowed
    ensures Lookup(KeptFields(o, allowed), k) == Lookup(o, k)
    decreases |o|
  {
    if o != [] {
      var p, f := o[..|o| - 1], o[|o| - 1];
      assert o == p + [f];
      FilterSnoc(p, f, allowed);
      KeptLookup(p, allowed, k);
      var kp := KeptFields(p, allowed);
      if f.key in allowed {
        assert (kp + [f])[..|kp + [f]| - 1] == kp;
      }
    }
  }

  /** The filter deletes fields and keeps the order of the rest, so it keeps
      keys distinct. */
  lemma {:induction false} KeptDistinct(o: seq<Field>, allowed: seq<string>)
    requires DistinctKeys(o)
    ensures DistinctKeys(KeptFields(o, allowed))
    ensures forall i :: 0 <= i < |KeptFields(o, allowed)| ==> KeptFields(o, allowed)[i] in o
    decreases |o|
  {
    if o != [] {
      var p, f := o[..|o| - 1], o[|o| - 1];
      assert o == p + [f];
      FilterSnoc(p, f, allowed);
      KeptDistinct(p, allowed);
      var kp := KeptFields(p, allowed);
      forall i | 0 <= i < |kp|
        ensures kp[i].key != f.key
      {
        var j :| 0 <= j < |p| && p[j] == kp[i];
        assert o[j] == p[j];
      }
    }
  }

  /** A key is deleted exactly when the object has it and it is not
      allowed. */
  lemma {:induction false} DroppedExactly(o: seq<Field>, allowed: seq<string>, k: string)
    ensures k in DroppedKeys(o, allowed) <==> k in Keys(o) && k !in allowed
    decreases |o|
  {
    if o != [] {
      var p, f := o[..|o| - 1], o[|o| - 1];
      assert o == p + [f];
      FilterSnoc(p, f, allowed);
      DroppedExactly(p, allowed, k);
    }
  }

  /** No key appears twice in the list. */
  predicate NoRepeats(ks: seq<string>) {
    forall i, j :: 0 <= i < j < |ks| ==> ks[i] != ks[j]
  }

  /** With distinct keys in the object, no key is deleted, and so
      reported, twice. */
  lemma {:induction false} DroppedDistinct(o: seq<Field>, allowed: seq<string>)
    requires DistinctKeys(o)
    ensures NoRepeats(DroppedKeys(o, allowed))
    decreases |o|
  {
    if o != [] {
      var p, f := o[..|o| - 1], o[|o| - 1];
      assert o == p + [f];
      FilterSnoc(p, f, allowed);
      DroppedDistinct(p, allowed);
      if f.key !in allowed {
        forall j | 0 <= j < |p|
          ensures Keys(p)[j] != f.key
        {
          assert o[j] == p[j];
        }
        DroppedExactly(p, allowed, f.key);
      }
    }
  }

  lemma DefaultMetaKeysAccepted(plugin: string)
    ensures Keys(DefaultMeta(plugin)) == ["name", "author", "description", "version"]
    ensures forall k :: k in Keys(DefaultMeta(plugin)) ==> k in AcceptedMetaKeys
    ensures forall i :: 0 <= i < |DefaultMeta(plugin)| ==> DefaultMeta(plugin)[i].key in AcceptedMetaKeys
    ensures DistinctKeys(DefaultMeta(plugin))
  {
    assert Keys(DefaultMeta(plugin)) == ["name", "author", "description", "version"];
  }

  /** The fields `Object.assign` copies from `config.meta`; `undefined`
      contributes none. */
  function UserMeta(meta: Option<Value>): seq<Field> {
    OwnEnumerable(meta.GetOr(Null))
  }

  /** `Object.assign(defaultMeta, config.meta)` followed by the filter:
      the resulting meta and the keys dropped from it. */
  function MergeMeta(plugin: string, meta: Option<Value>): (r: (seq<Field>, seq<string>))
    ensures forall i :: 0 <= i < |r.0| ==> r.0[i].key in AcceptedMetaKeys
    ensures forall k :: k in AcceptedMetaKeys ==>
              Lookup(r.0, k) == if k in Keys(UserMeta(meta)) then Lookup(UserMeta(meta), k)
                                else Lookup(DefaultMeta(plugin), k)
    ensures forall k :: k in r.1 <==> k in Keys(UserMeta(meta)) && k !in AcceptedMetaKeys
    ensures NoRepeats(r.1)
    ensures "name" in Keys(r.0)
    ensures DistinctKeys(r.0)
  {
    var merged := Assign(DefaultMeta(plugin), UserMeta(meta));
    MergedMetaFacts(plugin, UserMeta(meta), merged);
    DefaultMetaKeysAccepted(plugin);
    DroppedDistinct(merged, AcceptedMetaKeys);
    (KeptFields(merged, AcceptedMetaKeys), DroppedKeys(merged, AcceptedMetaKeys))
  }

  /** The merged meta keeps a `name` and distinct keys through the filter. */
  lemma MergedMetaFacts(plugin: string, user: seq<Field>, merged: seq<Field>)
    requires merged == Assign(DefaultMeta(plugin), user)
    ensures DistinctKeys(KeptFields(merged, AcceptedMetaKeys))
    ensures "name" in Keys(KeptFields(merged, AcceptedMetaKeys))
    ensures forall k :: k in AcceptedMetaKeys ==> Lookup(KeptFields(merged, AcceptedMetaKeys), k) == Lookup(merged, k)
    ensures forall k :: k in DroppedKeys(merged, AcceptedMetaKeys) <==> k in Keys(user) && k !in AcceptedMetaKeys
  {
    DefaultMetaKeysAccepted(plugin);
    KeptDistinct(merged, AcceptedMetaKeys);
    MergedLookups(merged);
    KeptLookup(merged, AcceptedMetaKeys, "name");
    MergedDropped(plugin, user, merged);
  }

  lemma MergedLookups(merged: seq<Field>)
    ensures forall k :: k in AcceptedMetaKeys ==> Lookup(KeptFields(merged, AcceptedMetaKeys), k) == Lookup(merged, k)
  {
    forall k | k in AcceptedMetaKeys
      ensures Lookup(KeptFields(merged, AcceptedMetaKeys), k) == Lookup(merged, k)
    {
      KeptLookup(merged, AcceptedMetaKeys, k);
    }
  }

  /** Only user keys are dropped: the default keys are all accepted. */
  lemma MergedDropped(plugin: string, user: seq<Field>, merged: seq<Field>)
    requires merged == Assign(DefaultMeta(plugin), user)
    ensures forall k :: k in DroppedKeys(merged, AcceptedMetaKeys) <==> k in Keys(user) && k !in AcceptedMetaKeys
  {
    DefaultMetaKeysAccepted(plugin);
    forall k
      ensures k in DroppedKeys(merged, AcceptedMetaKeys) <==> k in Keys(user) && k !in AcceptedMetaKeys
    {
      DroppedExactly(merged, AcceptedMetaKeys, k);
    }
  }

  /** The outcome of `getPluginConfig`: the returned configuration object,
      its `meta` and the warnings logged while building it. */
  datatype Loaded = Loaded(config: seq<Field>, meta: seq<Field>, warnings: seq<Warning>)

  function InvalidKeyWarnings(keys: seq<string>): (ws: seq<Warning>)
    ensures |ws| == |keys|
    ensures forall i :: 0 <= i < |keys| ==> ws[i] == InvalidMetaKey(keys[i])
  {
    seq(|keys|, i requires 0 <= i < |keys| => InvalidMetaKey(keys[i]))
  }

  /** True when `config.changelog && !config.zlibrary`. Only an object
      can carry a truthy `changelog`. */
  function ChangelogNeedsZLibrary(config: Value): (r: bool)
    requires config != Null
    ensures r ==> config.Obj? && "changelog" in Keys(config.fields)
    ensures r ==> Truthy(Lookup(config.fields, "changelog").value)
  {
    Present(Property(config, "changelog")) && !Present(Property(config, "zlibrary"))
  }

  /** The configuration returned for a `config.json` holding `config`:
      `{ ...config, meta }`, with the warnings logged while building it. */
  function ParsedPluginConfig(config: Value, plugin: string): (r: Loaded)
    requires config != Null
    ensures forall k :: k != "meta" ==> Lookup(r.config, k) == Lookup(OwnEnumerable(config), k)
    ensures Lookup(r.config, "meta") == Some(Obj(r.meta))
    ensures DistinctKeys(r.config) && DistinctKeys(r.meta) && "name" in Keys(r.meta)
    ensures forall i :: 0 <= i < |r.meta| ==> r.meta[i].key in AcceptedMetaKeys
    ensures r.meta == MergeMeta(plugin, Property(config, "meta")).0
    ensures r.warnings == InvalidKeyWarnings(MergeMeta(plugin, Property(config, "meta")).1)
                          + (if ChangelogNeedsZLibrary(config) then [ChangelogWithoutZLibrary] else [])
  {
    var (meta, dropped) := MergeMeta(plugin, Property(config, "meta"));
    var changelog := if ChangelogNeedsZLibrary(config) then [ChangelogWithoutZLibrary] else [];
    Loaded(Put(Spread(config), "meta", Obj(meta)), meta, InvalidKeyWarnings(dropped) + changelog)
  }

  function GetPluginConfig(env: Env, entryDir: string, plugin: string): (r: Result<Loaded, ConfigError>)
    ensures env.file(env.join(entryDir, PluginConfigFile)).Missing? ==>
              r == Ok(Loaded([Field("meta", Obj(DefaultMeta(plugin)))], DefaultMeta(plugin), []))
    ensures env.file(env.join(entryDir, PluginConfigFile)).Malformed? ==>
              r == Err(MalformedJson(env.join(entryDir, PluginConfigFile)))
    ensures env.file(env.join(entryDir, PluginConfigFile)) == Parsed(Null) ==>
              r == Err(NullConfig(env.join(entryDir, PluginConfigFile)))
    ensures env.file(env.join(entryDir, PluginConfigFile)).Parsed? &&
            env.file(env.join(entryDir, PluginConfigFile)).value != Null ==>
              r == Ok(ParsedPluginConfig(env.file(env.join(entryDir, PluginConfigFile)).value, plugin))
    ensures r.Ok? ==>
              && Lookup(r.value.config, "meta") == Some(Obj(r.value.meta))
              && DistinctKeys(r.value.config)
              && DistinctKeys(r.value.meta)
              && "name" in Keys(r.value.meta)
              && (forall i :: 0 <= i < |r.value.meta| ==> r.value.meta[i].key in AcceptedMetaKeys)
  {
    var path := env.join(entryDir, PluginConfigFile);
    DefaultMetaKeysAccepted(plugin);
    match env.file(path)
    case Missing =>
      Ok(Loaded([Field("meta", Obj(DefaultMeta(plugin)))], DefaultMeta(plugin), []))
    case Malformed => Err(MalformedJson(path))
    case Parsed(config) =>
      if config == Null then Err(NullConfig(path)) else Ok(ParsedPluginConfig(config, plugin))
  }
}

=== FILE: loader_facts.dfy ===
/** Properties of the configuration loader stated across calls: defaults
    survive where the user is silent, the meta filter is idempotent, and
    the behaviour on small concrete configurations. */
module LoaderFacts {
  import opened Results
  import opened Json
  import opened Host
  import opened Loader

  /** A meta key the user does not supply keeps its default. */
  lemma MetaDefaultsKept(plugin: string, meta: Option<Value>)
    ensures var m := MergeMeta(plugin, meta).0; var user := Keys(UserMeta(meta));
      && ("name" !in user ==> Lookup(m, "name") == Some(Str(plugin)))
      && ("author" !in user ==> Lookup(m, "author") == Some(Str("Unknown")))
      && ("description" !in user ==> Lookup(m, "description") == Some(Str("Plugin bundled with BundleBD")))
      && ("version" !in user ==> Lookup(m, "version") == Some(Str("1.0.0")))
  {
    var d := DefaultMeta(plugin);
    DefaultMetaKeysAccepted(plugin);
    LookupField(d, 0);
    LookupField(d, 1);
    LookupField(d, 2);
    LookupField(d, 3);
  }

  /** Filtering an object whose keys are all allowed changes nothing and
      drops nothing. */
  lemma {:induction false} FilterKeepsAllowed(o: seq<Field>, allowed: seq<string>)
    requires forall i :: 0 <= i < |o| ==> o[i].key in allowed
    ensures KeptFields(o, allowed) == o
    ensures DroppedKeys(o, allowed) == []
    decreases |o|
  {
    if o != [] {
      var p, f := o[..|o| - 1], o[|o| - 1];
      assert o == p + [f];
      FilterSnoc(p, f, allowed);
      FilterKeepsAllowed(p, allowed);
    }
  }

  /** The meta filter is idempotent and a second pass warns about nothing. */
  lemma FilterIdempotent(o: seq<Field>, allowed: seq<string>)
    ensures KeptFields(KeptFields(o, allowed), allowed) == KeptFields(o, allowed)
    ensures DroppedKeys(KeptFields(o, allowed), allowed) == []
  {
    FilterKeepsAllowed(KeptFields(o, allowed), allowed);
  }

  /** Without `config.json` the plugin configuration holds `meta` and
      nothing else: no `entry`, `zlibrary` or `changelog`. */
  lemma NoConfigFileMetaOnly(env: Env, entryDir: string, plugin: string)
    requires env.file(env.join(entryDir, PluginConfigFile)).Missing?
    ensures var r := GetPluginConfig(env, entryDir, plugin);
      && r.Ok?
      && Keys(r.value.config) == ["meta"]
      && Lookup(r.value.config, "entry").None?
      && Lookup(r.value.config, "zlibrary").None?
      && Lookup(r.value.config, "changelog").None?
      && r.value.warnings == []
  {
  }

  /** The warnings are one per dropped meta key, in order, then at most the
      changelog warning. */
  lemma WarningCount(env: Env, entryDir: string, plugin: string)
    requires env.file(env.join(entryDir, PluginConfigFile)).Parsed?
    requires env.file(env.join(entryDir, PluginConfigFile)).value != Null
    ensures var config := env.file(env.join(entryDir, PluginConfigFile)).value;
      var r := GetPluginConfig(env, entryDir, plugin);
      var dropped := MergeMeta(plugin, Property(config, "meta")).1;
      && r.Ok?
      && |r.value.warnings| == |dropped| + (if ChangelogNeedsZLibrary(config) then 1 else 0)
      && (forall i :: 0 <= i < |dropped| ==> r.value.warnings[i] == InvalidMetaKey(dropped[i])
                                             && dropped[i] !in AcceptedMetaKeys)
      && (forall i, j :: 0 <= i < j < |dropped| ==> r.value.warnings[i] != r.value.warnings[j])
      && (ChangelogWarningGiven(r.value.warnings) <==> ChangelogNeedsZLibrary(config))
  {
    var config := env.file(env.join(entryDir, PluginConfigFile)).value;
    var dropped := MergeMeta(plugin, Property(config, "meta")).1;
    var changelog := if ChangelogNeedsZLibrary(config) then [ChangelogWithoutZLibrary] else [];
    PluginWarnings(env, entryDir, plugin);
    WarningsShape(dropped, changelog);
    forall i | 0 <= i < |dropped|
      ensures dropped[i] !in AcceptedMetaKeys
    {
      assert dropped[i] in dropped;
    }
    DistinctWarnings(dropped, GetPluginConfig(env, entryDir, plugin).value.warnings);
  }

  /** Warnings that name keys without repeats are themselves distinct. */
  lemma DistinctWarnings(dropped: seq<string>, ws: seq<Warning>)
    requires NoRepeats(dropped) && |dropped| <= |ws|
    requires forall i :: 0 <= i < |dropped| ==> ws[i] == InvalidMetaKey(dropped[i])
    ensures forall i, j :: 0 <= i < j < |dropped| ==> ws[i] != ws[j]
  {
  }

  lemma PluginWarnings(env: Env, entryDir: string, plugin: string)
    requires env.file(env.join(entryDir, PluginConfigFile)).Parsed?
    requires env.file(env.join(entryDir, PluginConfigFile)).value != Null
    ensures var config := env.file(env.join(entryDir, PluginConfigFile)).value;
      var r := GetPluginConfig(env, entryDir, plugin);
      && r.Ok?
      && r.value.warnings == InvalidKeyWarnings(MergeMeta(plugin, Property(config, "meta")).1)
                             + (if ChangelogNeedsZLibrary(config) then [ChangelogWithoutZLibrary] else [])
  {
    var config := env.file(env.join(entryDir, PluginConfigFile)).value;
    var loaded := ParsedPluginConfig(config, plugin);
    assert GetPluginConfig(env, entryDir, plugin) == Ok(loaded);
  }

  lemma WarningsShape(dropped: seq<string>, changelog: seq<Warning>)
    requires changelog == [] || changelog == [ChangelogWithoutZLibrary]
    ensures var ws := InvalidKeyWarnings(dropped) + changelog;
      && |ws| == |dropped| + |changelog|
      && (forall i :: 0 <= i < |dropped| ==> ws[i] == InvalidMetaKey(dropped[i]))
      && (ChangelogWarningGiven(ws) <==> changelog != [])
  {
    var ws := InvalidKeyWarnings(dropped) + changelog;
    if changelog != [] {
      assert ws[|dropped|] == ChangelogWithoutZLibrary;
    } else {
      assert forall i :: 0 <= i < |ws| ==> ws[i].InvalidMetaKey?;
    }
  }

  predicate ChangelogWarningGiven(ws: seq<Warning>) {
    exists i :: 0 <= i < |ws| && ws[i] == ChangelogWithoutZLibrary
  }

  /** A trailing field outside the list is deleted and reported last. */
  lemma FilterDropsLast(o: seq<Field>, f: Field, allowed: seq<string>)
    requires f.key !in allowed
    requires forall i :: 0 <= i < |o| ==> o[i].key in allowed
    ensures KeptFields(o + [f], allowed) == o
    ensures DroppedKeys(o + [f], allowed) == [f.key]
  {
    FilterSnoc(o, f, allowed);
    FilterKeepsAllowed(o, allowed);
  }

  /** The `meta` of the scenario below: a name and one key outside the
      list. */
  function NameAndStray(name: string, stray: string, x: Value): seq<Field> {
    [Field("name", Str(name)), Field(stray, x)]
  }

  function StrayConfig(name: string, stray: string, x: Value): Value {
    Obj([Field("meta", Obj(NameAndStray(name, stray, x)))])
  }

  lemma OverwriteName(plugin: string, name: string)
    ensures Overwrite(DefaultMeta(plugin), "name", Str(name)) == DefaultMeta(name)
  {
    var r := Overwrite(DefaultMeta(plugin), "name", Str(name));
    var e := DefaultMeta(name);
    assert r[0] == e[0] && r[1] == e[1] && r[2] == e[2] && r[3] == e[3];
  }

  /** Assigning a name onto the defaults gives the defaults for that name. */
  lemma NameAssigned(plugin: string, name: string)
    ensures Assign(DefaultMeta(plugin), [Field("name", Str(name))]) == DefaultMeta(name)
  {
    var f := Field("name", Str(name));
    AssignSnoc(DefaultMeta(plugin), [], f);
    assert [] + [f] == [f];
    DefaultMetaKeysAccepted(plugin);
    PutExisting(DefaultMeta(plugin), "name", Str(name));
    OverwriteName(plugin, name);
  }

  /** Then the stray key is appended after the four defaults. */
  lemma StrayAssigned(plugin: string, name: string, stray: string, x: Value)
    requires stray !in AcceptedMetaKeys
    ensures Assign(DefaultMeta(plugin), NameAndStray(name, stray, x)) == DefaultMeta(name) + [Field(stray, x)]
  {
    var f := Field("name", Str(name));
    assert NameAndStray(name, stray, x) == [f] + [Field(stray, x)];
    AssignSnoc(DefaultMeta(plugin), [f], Field(stray, x));
    NameAssigned(plugin, name);
    DefaultMetaKeysAccepted(name);
    PutNew(DefaultMeta(name), stray, x);
  }

  lemma MergeMetaUnfold(plugin: string, meta: Option<Value>)
    ensures var merged := Assign(DefaultMeta(plugin), UserMeta(meta));
      MergeMeta(plugin, meta) == (KeptFields(merged, AcceptedMetaKeys), DroppedKeys(merged, AcceptedMetaKeys))
  {
  }

  lemma StrayMerged(plugin: string, name: string, stray: string, x: Value)
    requires stray !in AcceptedMetaKeys
    ensures MergeMeta(plugin, Some(Obj(NameAndStray(name, stray, x)))) == (DefaultMeta(name), [stray])
  {
    var user := NameAndStray(name, stray, x);
    MergeMetaUnfold(plugin, Some(Obj(user)));
    assert UserMeta(Some(Obj(user))) == user;
    StrayAssigned(plugin, name, stray, x);
    DefaultMetaKeysAccepted(name);
    FilterDropsLast(DefaultMeta(name), Field(stray, x), AcceptedMetaKeys);
  }

  lemma StrayConfigShape(name: string, stray: string, x: Value)
    ensures Property(StrayConfig(name, stray, x), "meta") == Some(Obj(NameAndStray(name, stray, x)))
    ensures !ChangelogNeedsZLibrary(StrayConfig(name, stray, x))
    ensures InvalidKeyWarnings([stray]) == [InvalidMetaKey(stray)]
  {
    assert Property(StrayConfig(name, stray, x), "changelog") == None;
  }

  lemma StrayLoaded(plugin: string, name: string, stray: string, x: Value)
    requires stray !in AcceptedMetaKeys
    ensures ParsedPluginConfig(StrayConfig(name, stray, x), plugin).meta == DefaultMeta(name)
    ensures ParsedPluginConfig(StrayConfig(name, stray, x), plugin).warnings == [InvalidMetaKey(stray)]
  {
    StrayConfigShape(name, stray, x);
    StrayMerged(plugin, name, stray, x);
  }

  /** `{"meta": {"name": "Foo", "bogus": "x"}}`, for any name and any key
      outside the list: the name is taken, the unknown key dropped with one
      warning, and the other fields keep their defaults. */
  lemma UnknownMetaKeyScenario(env: Env, entryDir: string, plugin: string, name: string, stray: string, x: Value)
    requires stray !in AcceptedMetaKeys
    requires env.file(env.join(entryDir, PluginConfigFile)) == Parsed(StrayConfig(name, stray, x))
    ensures var r := GetPluginConfig(env, entryDir, plugin);
      && r.Ok?
      && r.value.meta == DefaultMeta(name)
      && r.value.warnings == [InvalidMetaKey(stray)]
  {
    var config := StrayConfig(name, stray, x);
    assert config.Obj?;
    assert GetPluginConfig(env, entryDir, plugin) == Ok(ParsedPluginConfig(config, plugin));
    StrayLoaded(plugin, name, stray, x);
  }

  /** The logged text names the warning: the two messages never collide,
      and an invalid-key message gives back its key. */
  lemma WarningMessageIdentifies(w1: Warning, w2: Warning)
    requires WarningMessage(w1) == WarningMessage(w2)
    ensures w1 == w2
  {
    var m := WarningMessage(w1);
    MessageEnd(w1);
    MessageEnd(w2);
    if w1.InvalidMetaKey? && w2.InvalidMetaKey? {
      assert w1.key == m[18..|m| - 16] == w2.key;
    }
  }

  lemma MessageEnd(w: Warning)
    ensures var m := WarningMessage(w); |m| > 0 && m[|m| - 1] == if w.InvalidMetaKey? then 'n' else 'y'
  {
  }

  /** `config.changelog` is read with JavaScript truthiness: an empty list
      still asks for ZLibrary, an empty string does not, and `zlibrary: 0`
      counts as absent. */
  lemma ChangelogTruthiness()
    ensures ChangelogNeedsZLibrary(Obj([Field("changelog", Arr([]))]))
    ensures !ChangelogNeedsZLibrary(Obj([Field("changelog", Str(""))]))
    ensures ChangelogNeedsZLibrary(Obj([Field("changelog", Str("x")), Field("zlibrary", Num(0))]))
    ensures !ChangelogNeedsZLibrary(Obj([Field("changelog", Str("x")), Field("zlibrary", Bool(true))]))
    ensures !ChangelogNeedsZLibrary(Arr([Str("changelog")]))
  {
  }
}

=== FILE: patterns.dfy ===
/** The regular expressions of the module-rule table. Each regex literal is
    modelled by its source text (which the style rules splice into a new
    regex) together with the set of strings it matches. Every regex used
    here is either a set of alternative literal suffixes anchored by `$`
    (JavaScript's `$` without the `m` flag matches only at the end of the
    input) or an unanchored literal word. */
module Patterns {
  import opened Results

  predicate EndsWith(s: string, suffix: string) {
    |suffix| <= |s| && s[|s| - |suffix|..] == suffix
  }

  predicate OccursAt(s: string, w: string, j: int) {
    0 <= j && j + |w| <= |s| && s[j..j + |w|] == w
  }

  datatype Lang = Suffixes(alts: seq<string>) | Substring(word: string)

  datatype Regex = Regex(source: string, lang: Lang)

  /** `re.test(s)`. */
  predicate Matches(re: Regex, s: string) {
    match re.lang
    case Suffixes(alts) => exists i :: 0 <= i < |alts| && EndsWith(s, alts[i])
    case Substring(w) => exists j :: 0 <= j <= |s| && OccursAt(s, w, j)
  }

  /** `new RegExp(escaped + re.source)` where `escaped` is the regex spelling
      of the plain text `literal`: the new regex matches where `literal`
      immediately precedes a match of `re`. A source with a `|` would split
      into alternatives of which only the first gets the prefix, so such
      sources are ruled out. */
  function WithLiteralPrefix(escaped: string, literal: string, re: Regex): (r: Regex)
    requires '|' !in re.source
    ensures r.source == escaped + re.source
    ensures re.lang.Suffixes? ==> forall s :: Matches(r, s) <==>
              exists i :: 0 <= i < |re.lang.alts| && EndsWith(s, literal + re.lang.alts[i])
    ensures re.lang.Substring? ==> forall s :: Matches(r, s) <==> exists j :: 0 <= j <= |s| && OccursAt(s, literal + re.lang.word, j)
  {
    match re.lang
    case Suffixes(alts) =>
      var prefixed := seq(|alts|, i requires 0 <= i < |alts| => literal + alts[i]);
      assert forall i :: 0 <= i < |alts| ==> prefixed[i] == literal + alts[i];
      Regex(escaped + re.source, Suffixes(prefixed))
    case Substring(w) => Regex(escaped + re.source, Substring(literal + w))
  }

  /** The `auto` option of a default style rule: `\.module` before the rule's
      own test. */
  function ModuleAuto(re: Regex): Regex
    requires '|' !in re.source
  {
    WithLiteralPrefix("\\.module", ".module", re)
  }

  const JsxFiles := Regex("\\.jsx?$", Suffixes([".js", ".jsx"]))
  const TsxFiles := Regex("\\.tsx?$", Suffixes([".ts", ".tsx"]))
  const CssFiles := Regex("\\.css$", Suffixes([".css"]))
  const SassFiles := Regex("\\.s[ac]ss$", Suffixes([".sass", ".scss"]))
  const TxtFiles := Regex("\\.txt$", Suffixes([".txt"]))
  const SvgFiles := Regex("\\.svg$", Suffixes([".svg"]))
  const ImageFiles := Regex("\\.png$|\\.jpe?g$", Suffixes([".png", ".jpg", ".jpeg"]))
  /** Importers written in JavaScript or TypeScript. */
  const ScriptFiles := Regex("\\.[jt]sx?$", Suffixes([".js", ".jsx", ".ts", ".tsx"]))
  const ModuleQuery := Regex("module", Substring("module"))
  const UrlQuery := Regex("url", Substring("url"))

  /** The text after the last `.` of a path, if it has one. */
  function Extension(s: string): (r: Option<string>)
    ensures r.Some? ==> EndsWith(s, "." + r.value) && '.' !in r.value
    ensures r.None? ==> '.' !in s
  {
    if s == [] then None
    else if s[|s| - 1] == '.' then Some("")
    else match Extension(s[..|s| - 1])
      case None => None
      case Some(w) =>
        assert s == s[..|s| - 1] + [s[|s| - 1]];
        Some(w + [s[|s| - 1]])
  }

  lemma {:induction false} ExtensionOfSuffix(s: string, w: string)
    requires EndsWith(s, "." + w) && '.' !in w
    ensures Extension(s) == Some(w)
  {
    if w != [] {
      var p := s[..|s| - 1];
      assert p[|p| - |"." + w[..|w| - 1]|..] == s[|s| - |"." + w|..|s| - 1];
      ExtensionOfSuffix(p, w[..|w| - 1]);
      assert w == w[..|w| - 1] + [w[|w| - 1]];
    }
  }

  /** Every alternative is a dot followed by dot-free text. */
  predicate Dotted(alts: seq<string>) {
    forall i :: 0 <= i < |alts| ==> |alts[i]| >= 1 && alts[i][0] == '.' && '.' !in alts[i][1..]
  }

  /** A suffix regex over dotted alternatives matches exactly the paths whose
      extension is one of them. */
  lemma MatchesByExtension(re: Regex, s: string)
    requires re.lang.Suffixes? && Dotted(re.lang.alts)
    ensures Matches(re, s) <==> Extension(s).Some? && "." + Extension(s).value in re.lang.alts
  {
    var alts := re.lang.alts;
    if Matches(re, s) {
      var i :| 0 <= i < |alts| && EndsWith(s, alts[i]);
      assert alts[i] == "." + alts[i][1..];
      ExtensionOfSuffix(s, alts[i][1..]);
    }
    if Extension(s).Some? && "." + Extension(s).value in alts {
      var i :| 0 <= i < |alts| && alts[i] == "." + Extension(s).value;
      assert EndsWith(s, alts[i]);
    }
  }
}

=== FILE: results.dfy ===
/** Failure-compatible wrappers shared by the configuration loader and the
    rule deriver: `Option` stands for a JavaScript value that may be
    `undefined`, `Result` for a computation that may throw. */
module Results {

  datatype Option<+T> = None | Some(value: T) {
    function GetOr(default: T): T {
      match this
      case Some(v) => v
      case None => default
    }
  }

  datatype Result<+R, +E> = Ok(value: R) | Err(error: E) {
    predicate IsFailure() {
      Err?
    }

    function PropagateFailure<U>(): Result<U, E>
      requires Err?
    {
      Err(error)
    }

    function Extract(): R
      requires Ok?
    {
      value
    }
  }
}

=== FILE: rule_table.dfy ===
/** Facts about the module-rule table as a whole: the style pairs and the
    three SVG rules split their cases by query and issuer, and no import is
    handled by two rules. */
module RuleTable {
  import opened Results
  import opened Patterns
  import opened Rules

  /** For a resource a style pair tests for, exactly one of the pair applies,
      and which one depends only on whether the query contains `module`. */
  lemma StylePairSplitsOnQuery(re: Regex, pre: seq<string>, styleLoader: string, metaName: string, req: Request)
    requires '|' !in re.source && Matches(re, req.resource)
    ensures Applies(StyleRules(re, pre, styleLoader, metaName)[0], req) <==> !Matches(ModuleQuery, req.query)
    ensures Applies(StyleRules(re, pre, styleLoader, metaName)[1], req) <==> Matches(ModuleQuery, req.query)
  {
  }

  /** For an `.svg` resource exactly one of the three SVG rules applies:
      the one that turns the file into a component (esbuild's jsx loader
      after svgr) for a script importer without `url` in the query, one of
      the two inline-asset rules otherwise. */
  lemma SvgRulesPartition(styleLoader: string, metaName: string, req: Request)
    requires Matches(SvgFiles, req.resource)
    ensures var r := ModuleRules(styleLoader, metaName);
      && (Applies(r[7], req) <==> Matches(ScriptFiles, req.issuer) && !Matches(UrlQuery, req.query))
      && (Applies(r[8], req) <==> Matches(ScriptFiles, req.issuer) && Matches(UrlQuery, req.query))
      && (Applies(r[9], req) <==> !Matches(ScriptFiles, req.issuer))
      && (Applies(r[7], req) || Applies(r[8], req) || Applies(r[9], req))
      && !(Applies(r[7], req) && Applies(r[8], req))
      && !(Applies(r[7], req) && Applies(r[9], req))
      && !(Applies(r[8], req) && Applies(r[9], req))
      && r[7].use == [Esbuild("jsx", "es2018"), Svgr("automatic", false)] && r[7].assetType.None?
      && r[8].use == [] && r[8].assetType == Some("asset/inline")
      && r[9].use == [] && r[9].assetType == Some("asset/inline")
  {
  }

  /** The style tests are single alternatives, so `\.module` can be put in
      front of them. */
  lemma StyleTestsHaveNoBar()
    ensures '|' !in CssFiles.source && '|' !in SassFiles.source
  {
  }

  /** The seven file tests of the table. */
  const Tests := [JsxFiles, TsxFiles, CssFiles, SassFiles, TxtFiles, SvgFiles, ImageFiles]

  /** Which entry of `Tests` each of the eleven rules uses. */
  const TestIndex := [0, 1, 2, 2, 3, 3, 4, 5, 5, 5, 6]

  /** The entry of `Tests` an extension belongs to, or `|Tests|`. */
  function GroupOf(dotted: string): nat {
    if dotted in [".js", ".jsx"] then 0
    else if dotted in [".ts", ".tsx"] then 1
    else if dotted == ".css" then 2
    else if dotted in [".sass", ".scss"] then 3
    else if dotted == ".txt" then 4
    else if dotted == ".svg" then 5
    else if dotted in [".png", ".jpg", ".jpeg"] then 6
    else 7
  }

  /** Every test is a dotted suffix regex, and no extension belongs to two
      tests. */
  lemma TestsByGroup()
    ensures forall k :: 0 <= k < |Tests| ==> Tests[k].lang.Suffixes? && Dotted(Tests[k].lang.alts)
    ensures forall k, x :: 0 <= k < |Tests| && x in Tests[k].lang.alts ==> GroupOf(x) == k
  {
  }

  lemma RuleTests(styleLoader: string, metaName: string)
    ensures forall i :: 0 <= i < 11 ==> ModuleRules(styleLoader, metaName)[i].test == Tests[TestIndex[i]]
  {
  }

  /** A rule applies only to resources of its test's extension group. */
  lemma ApplyingRuleGroup(styleLoader: string, metaName: string, req: Request, i: nat)
    requires i < 11 && Applies(ModuleRules(styleLoader, metaName)[i], req)
    ensures Extension(req.resource).Some?
    ensures GroupOf("." + Extension(req.resource).value) == TestIndex[i]
  {
    RuleTests(styleLoader, metaName);
    TestsByGroup();
    MatchesByExtension(ModuleRules(styleLoader, metaName)[i].test, req.resource);
  }

  /** Rules sharing a test exclude one another through their conditions. */
  lemma SameTestExclusive(styleLoader: string, metaName: string, req: Request, i: nat, j: nat)
    requires i < j < 11 && TestIndex[i] == TestIndex[j]
    ensures var r := ModuleRules(styleLoader, metaName); !(Applies(r[i], req) && Applies(r[j], req))
  {
    var r := ModuleRules(styleLoader, metaName);
    if i == 2 || i == 4 {
      assert j == i + 1;
      assert r[i].resourceQuery == Some(Not(ModuleQuery)) && r[j].resourceQuery == Some(Is(ModuleQuery));
    } else {
      assert 7 <= i < j <= 9;
      if Matches(SvgFiles, req.resource) {
        SvgRulesPartition(styleLoader, metaName, req);
      }
    }
  }

  /** No import is handled by two rules of the table. */
  lemma AtMostOneRuleApplies(styleLoader: string, metaName: string, req: Request)
    ensures var r := ModuleRules(styleLoader, metaName);
      forall i, j :: 0 <= i < j < |r| ==> !(Applies(r[i], req) && Applies(r[j], req))
  {
    var r := ModuleRules(styleLoader, metaName);
    forall i, j | 0 <= i < j < |r| && Applies(r[i], req) && Applies(r[j], req)
      ensures false
    {
      ApplyingRuleGroup(styleLoader, metaName, req, i);
      ApplyingRuleGroup(styleLoader, metaName, req, j);
      SameTestExclusive(styleLoader, metaName, req, i, j);
    }
  }

  /** The resources the table knows: those whose extension is one of the
      seven tests'. */
  predicate Handled(resource: string) {
    Extension(resource).Some? && GroupOf("." + Extension(resource).value) < |Tests|
  }

  /** A rule that applies has a known extension. */
  lemma AppliesOnlyToHandled(styleLoader: string, metaName: string, req: Request, i: nat)
    requires i < 11 && Applies(ModuleRules(styleLoader, metaName)[i], req)
    ensures Handled(req.resource)
  {
    ApplyingRuleGroup(styleLoader, metaName, req, i);
    assert TestIndex[i] < |Tests|;
  }

  /** The first rule of an extension's group, or of its style pair or SVG
      triple, applies. */
  lemma HandledHasRule(styleLoader: string, metaName: string, req: Request)
    requires Handled(req.resource)
    ensures exists i :: 0 <= i < 11 && Applies(ModuleRules(styleLoader, metaName)[i], req)
  {
    var r := ModuleRules(styleLoader, metaName);
    RuleTests(styleLoader, metaName);
    TestsByGroup();
    var g := GroupOf("." + Extension(req.resource).value);
    var i := if g <= 1 then g else if g == 2 then 2 else if g == 3 then 4 else if g == 4 then 6 else if g == 5 then 7 else 10;
    MatchesByExtension(Tests[g], req.resource);
    assert Matches(r[i].test, req.resource);
    if g == 2 || g == 3 {
      var re := if g == 2 then CssFiles else SassFiles;
      assert r[i].test == re;
      StyleTestsHaveNoBar();
      StylePairSplitsOnQuery(re, if g == 2 then [] else ["sass-loader"], styleLoader, metaName, req);
      assert Applies(r[i], req) || Applies(r[i + 1], req);
    } else if g == 5 {
      SvgRulesPartition(styleLoader, metaName, req);
      assert Applies(r[7], req) || Applies(r[8], req) || Applies(r[9], req);
    } else {
      assert Applies(r[i], req);
    }
  }

  /** Some rule handles an import exactly when its resource has a known
      extension, whatever the importer and the query. */
  lemma SomeRuleAppliesIffHandled(styleLoader: string, metaName: string, req: Request)
    ensures var r := ModuleRules(styleLoader, metaName);
      (exists i :: 0 <= i < |r| && Applies(r[i], req)) <==> Handled(req.resource)
  {
    var r := ModuleRules(styleLoader, metaName);
    if i :| 0 <= i < |r| && Applies(r[i], req) {
      AppliesOnlyToHandled(styleLoader, metaName, req, i);
    }
    if Handled(req.resource) {
      HandledHasRule(styleLoader, metaName, req);
    }
  }
}

=== FILE: rules.dfy ===
/** The module-rule table of the webpack configuration, as plain records:
    a rule applies to a request when its `test` matches the resource path
    and its `issuer` and `resourceQuery` conditions, where present, hold. */
module Rules {
  import opened Results
  import opened Patterns

  /** A rule condition: a regex, or `{ not: [regex] }`. */
  datatype Cond = Is(re: Regex) | Not(re: Regex)

  predicate Holds(c: Cond, s: string) {
    match c
    case Is(re) => Matches(re, s)
    case Not(re) => !Matches(re, s)
  }

  datatype Loader =
    | Named(name: string)
    | Esbuild(loader: string, target: string)
    | Css(auto: Option<Regex>, localIdentName: string, importLoaders: nat)
    | Svgr(jsxRuntime: string, babel: bool)

  datatype Rule = Rule(
    test: Regex,
    issuer: Option<Cond>,
    resourceQuery: Option<Cond>,
    use: seq<Loader>,
    assetType: Option<string>)

  /** One import: the resolved resource path, the importing file and the
      query string of the import. */
  datatype Request = Request(resource: string, issuer: string, query: string)

  predicate Applies(rule: Rule, req: Request) {
    && Matches(rule.test, req.resource)
    && (rule.issuer.Some? ==> Holds(rule.issuer.value, req.issuer))
    && (rule.resourceQuery.Some? ==> Holds(rule.resourceQuery.value, req.query))
  }

  function EsbuildLoader(loader: string): Loader {
    Esbuild(loader, "es2018")
  }

  const SvgLoader := Svgr("automatic", false)

  function LocalIdentName(metaName: string): string {
    metaName + "-[name]-[local]"
  }

  function NamedLoaders(names: seq<string>): (ls: seq<Loader>)
    ensures |ls| == |names|
    ensures forall i :: 0 <= i < |names| ==> ls[i] == Named(names[i])
  {
    seq(|names|, i requires 0 <= i < |names| => Named(names[i]))
  }

  /** The loader chain of a style rule: the style loader, css-loader, then
      the preprocessors. */
  function StyleChain(styleLoader: string, auto: Option<Regex>, metaName: string, pre: seq<string>): (c: seq<Loader>)
    ensures |c| == 2 + |pre|
    ensures c[0] == Named(styleLoader)
    ensures c[1] == Css(auto, metaName + "-[name]-[local]", |pre|)
    ensures c[2..] == NamedLoaders(pre)
  {
    var c := [Named(styleLoader), Css(auto, LocalIdentName(metaName), |pre|)] + NamedLoaders(pre);
    assert c[2..] == NamedLoaders(pre);
    c
  }

  /** `styleRules(regex, preLoaders)`: the default rule, which leaves imports
      carrying a `module` query alone and lets css-loader switch on CSS
      modules for `.module.<ext>` files, and the `?module` rule. `pre` is
      empty when `preLoaders` is absent. */
  function StyleRules(re: Regex, pre: seq<string>, styleLoader: string, metaName: string): (r: seq<Rule>)
    requires '|' !in re.source
    ensures |r| == 2
    ensures r[0].test == re && r[1].test == re
    ensures r[0].issuer.None? && r[1].issuer.None? && r[0].assetType.None? && r[1].assetType.None?
    ensures r[0].resourceQuery == Some(Not(ModuleQuery))
    ensures r[1].resourceQuery == Some(Is(ModuleQuery))
    ensures r[0].use == StyleChain(styleLoader, Some(ModuleAuto(re)), metaName, pre)
    ensures r[1].use == StyleChain(styleLoader, None, metaName, pre)
  {
    [
      Rule(re, None, Some(Not(ModuleQuery)), StyleChain(styleLoader, Some(ModuleAuto(re)), metaName, pre), None),
      Rule(re, None, Some(Is(ModuleQuery)), StyleChain(styleLoader, None, metaName, pre), None)
    ]
  }

  /** `module.rules`, in order. */
  function ModuleRules(styleLoader: string, metaName: string): (r: seq<Rule>)
    ensures |r| == 11
    ensures r[2..4] == StyleRules(CssFiles, [], styleLoader, metaName)
    ensures r[4..6] == StyleRules(SassFiles, ["sass-loader"], styleLoader, metaName)
  {
    [
      Rule(JsxFiles, None, None, [EsbuildLoader("jsx")], None),
      Rule(TsxFiles, None, None, [EsbuildLoader("tsx")], None)
    ]
    + StyleRules(CssFiles, [], styleLoader, metaName)
    + StyleRules(SassFiles, ["sass-loader"], styleLoader, metaName)
    + [
      Rule(TxtFiles, None, None, [], Some("asset/source")),
      Rule(SvgFiles, Some(Is(ScriptFiles)), Some(Not(UrlQuery)), [EsbuildLoader("jsx"), SvgLoader], None),
      Rule(SvgFiles, Some(Is(ScriptFiles)), Some(Is(UrlQuery)), [], Some("asset/inline")),
      Rule(SvgFiles, Some(Not(ScriptFiles)), None, [], Some("asset/inline")),
      Rule(ImageFiles, None, None, [], Some("asset/inline"))
    ]
  }

  /** What the rules outside the style pairs do: esbuild compiles scripts,
      text files become source assets, SVGs imported from scripts without
      `url` become components, and the other SVG and image imports become
      inline assets. Only the SVG rules look at the importer, and only the
      style and SVG rules at the query. */
  lemma RuleLoaders(styleLoader: string, metaName: string)
    ensures var r := ModuleRules(styleLoader, metaName);
      && r[0].use == [Esbuild("jsx", "es2018")] && r[1].use == [Esbuild("tsx", "es2018")]
      && r[0].assetType.None? && r[1].assetType.None? && r[7].assetType.None?
      && r[6].use == [] && r[6].assetType == Some("asset/source")
      && r[7].use == [Esbuild("jsx", "es2018"), Svgr("automatic", false)]
      && (forall i :: 8 <= i <= 10 ==> r[i].use == [] && r[i].assetType == Some("asset/inline"))
      && (forall i :: 0 <= i < 11 && i != 7 && i != 8 && i != 9 ==> r[i].issuer.None?)
      && (forall i :: 0 <= i < 11 && i != 2 && i != 3 && i != 4 && i != 5 && i != 7 && i != 8 ==>
            r[i].resourceQuery.None?)
  {
  }
}
